=== FILE: README.md ===
# QGIS pole-layout scripts, modelled in Dafny

This project models the core of a set of QGIS automation scripts for laying
out electricity distribution poles:

- `calculate_points_distance` (util_services.py and its copy in each drawer)
  splits a span into equal segments no longer than a maximum.
- line_drawer.py ("P" labels) and manyani_mv_line_drawer.py ("MV" labels)
  walk the control-pole layer. They open one branch per feature whose
  `connecting_cp` names a control pole, and fill each branch with evenly
  spaced poles numbered from a global counter. A second pass then emits one
  line per consecutive pair of branch points, numbered from 2, and renames
  the point each line ends at.
- line_drawer_v1.py (the LV drawer) does the same in one pass, with stations
  0..n of each span and one polyline per branch.
- create_points_btw_two_poins.py fills the gap between consecutive numbered
  poles with `M%03d` poles.
- lines_between_points.py joins every point to its nearest point with a
  greater feature id, when that point is within 300 units.
- export_staking_sheet_to_excel.py turns each pole feature into a 22-column
  staking-sheet row.

The modules follow the scripts:

| module | file | models |
|---|---|---|
| `Wrappers` | wrappers.dfy | `Option` and `Result` |
| `Text` | text.dfy | `{n:0Wd}` formatting, `int()`, `str.strip`, `str.split` |
| `Spacing` | spacing.dfy | both `calculate_points_distance` copies and the span tiers |
| `Projection` | projection.dfy | UTM zone and CRS, slope, `dx`, stepping along a span |
| `BranchDrawer` | branch_drawer.dfy | line_drawer.py and manyani_mv_line_drawer.py |
| `PolylineDrawer` | polyline_drawer.dfy | line_drawer_v1.py |
| `GapFiller` | gap_filler.dfy | create_points_btw_two_poins.py |
| `NearestLinker` | nearest_linker.dfy | lines_between_points.py |
| `StakingSheet` | staking_sheet.dfy | export_staking_sheet_to_excel.py |

The host toolkit appears as a `Host` value with three fields:

- `toGrid(zone, p)`: the transform into WGS 84 / UTM zone `zone`;
- `measure(p, q)`: the WGS84 geodesic length;
- `sqrt`: any function satisfying `IsSqrt`.

A generated vertex is tagged with the frame it is in:

- `Grid`: projected, which the host maps back to the layer CRS;
- `GridNoY`: a vertical MV span, where y is `inf * 0`;
- `Native`: a feature's own geometry.

A Python exception ends the whole script. It is modelled as a `Failure` of
the whole run, carrying the first error in layer order.

Behaviour of the scripts worth knowing, which the model keeps:

- A vertical span (equal projected x) divides by zero at
  line_drawer.py:110, line_drawer_v1.py:105 and
  create_points_btw_two_poins.py:50. That aborts the script; it does not
  skip the branch.
- line_drawer.py places the last generated pole of a branch on the feature
  itself (line_drawer.py:150-151). The MV drawer computes it like the
  others (manyani_mv_line_drawer.py:151-159).
- The drawers' `calculate_points_distance` returns one segment when the
  span is below the *maximum* (line_drawer.py:10), although the comment
  beside it (line_drawer.py:11) speaks of the minimum; the minimum is never
  read. The util_services.py copy returns zero segments below the minimum
  (util_services.py:3-6).
- In lines_between_points.py the `drawn_pairs` test (lines 60-62) ends the
  loop body either way, so it changes nothing. Each point joins its own
  nearest later point (lines 65-73).
- export_staking_sheet_to_excel.py tests `j_10 == None` twice
  (line 72) and never tests J19 for NULL.

## Model

| member | source | states |
|---|---|---|
| Spacing.SegmentCount | util_services.py:9-15 | floor division plus one for a positive remainder is the ceiling: `(k-1)*max < total <= k*max` |
| Spacing.ResolveSpan | line_drawer.py:8-26 | below the maximum a span is one segment of the whole length; otherwise the count is the ceiling of total/max, the segments share the span exactly (`count*spacing == total`) and each is in (0, max] |
| Spacing.ResolveSpanWithMin | util_services.py:1-19 | below the minimum there are no segments and the spacing is the total; at or above it, a maximum of 0 raises in `//`, and for a positive maximum the division raises exactly when `-max < total <= 0`; every success at or above the minimum has a non-zero count sharing the total exactly, and for a positive maximum the ceiling count with spacing at most max |
| Spacing.ResolveIgnoresMinimum | line_drawer.py:8-26 | the drawer copy gives the same span whatever minimum is passed |
| Spacing.ResolveSpanBounds | manyani_mv_line_drawer.py:8-26 | every span has at least one segment, the segments add back up to the total, and none is longer than the maximum for a non-negative total |
| Spacing.PoleTier | line_drawer.py:124-132 | every tier's minimum is positive and below its maximum; the maximum lies in [110, 125]; a control pole starting with "CP_13" gets exactly the (122, 125) tier, and any other gets a maximum of at most 116 |
| Spacing.FloorDivBounds | util_services.py:9-12 | Python's float `//` and `%` for a positive divisor: `q*b <= a < (q+1)*b`, and the remainder lies in [0, b) |
| Spacing.PoleTierOutcome | line_drawer.py:124-132 | "CP_13" branches keep a span under 125 as one segment and cut a longer one into the ceiling count of segments of at most 125; other spans in (110, 116] stay one segment; all others get segments of at most 110 with the ceiling count |
| Spacing.MvTierOutcome | manyani_mv_line_drawer.py:130-131 | MV spans under 115 are one segment; longer ones get the ceiling count of segments of at most 115 |
| Projection.UtmZoneRange | line_drawer.py:95 | a longitude in [-180, 180) gives a zone 1..60 |
| Projection.UtmZoneAntimeridian | line_drawer.py:95 | longitude 180 gives zone 61 |
| Projection.UtmCrsShape | line_drawer.py:96 | for zones 1..60 the CRS id is "EPSG:326" and two digits that read back as the zone |
| Projection.StepLength | line_drawer.py:137-138 | the step `dx` and its rise `slope*dx` have length `d`: `dx^2 (1 + slope^2) == d^2` |
| Projection.StepSign | line_drawer.py:137-138 | `dx` points from x1 towards x2: non-negative when `x2 > x1`, else non-positive, and strictly so for `d > 0` |
| Projection.StationGeometry | line_drawer.py:153-158 | station k lies on the line through both anchors, `k*d` from the backward anchor, on the forward anchor's side, and off the backward anchor once it has moved |
| Projection.AlongOnLine | line_drawer_v1.py:129-132 | station k lies on the line through both anchors |
| Projection.AlongDistance | line_drawer_v1.py:124-132 | station k is exactly `k*d` from the backward anchor |
| Projection.AlongSide | line_drawer_v1.py:124-132 | station k is on the forward anchor's side of the backward anchor along x |
| Projection.StationOnLine | create_points_btw_two_poins.py:84-87 | `(x1 + dx*k, y1 + slope*dx*k)` is collinear with both anchors for any `dx` and `k` |
| BranchDrawer.FindPole | line_drawer.py:82-85 | the `next(..., None)` lookup: none iff no feature has that control-pole id, else the first feature that has it |
| BranchDrawer.TierOf | line_drawer.py:124-132 | the limits a drawer passes always have a positive maximum |
| BranchDrawer.SpanOf | manyani_mv_line_drawer.py:127-131 | every branch gets at least one generated pole, with a non-negative spacing for a non-negative length |
| BranchDrawer.Generated | line_drawer.py:148-176 | the generated poles of one branch: as many as the span's segment count; the "P" drawer fails exactly on a vertical span |
| BranchDrawer.GeneratedVertices | manyani_mv_line_drawer.py:133-159 | pole i is station i+1 of the span, except line_drawer.py's last pole, which is the feature itself; a vertical MV span keeps x = x1 with no y |
| BranchDrawer.Partner | line_drawer.py:81-90 | the control pole a feature connects to is the first layer feature with that control-pole id, as `next(...)` takes it; there is none exactly when no feature has the id |
| BranchDrawer.Plan | line_drawer.py:72-176 | feature 0 starts the point list; a feature with no partner is skipped; a branch is keyed `control_pole - connecting_cp`, its head is the control pole in the feature's UTM zone, and its poles are exactly the generated poles of the span (at least one); the "P" drawer fails exactly on a vertical span |
| BranchDrawer.Plans | line_drawer.py:70 | the loop yields every feature's plan in order, or fails exactly when some plan fails |
| BranchDrawer.Put | line_drawer.py:145 | dict assignment: a new id is appended; an existing id is replaced in place at its position, so the order and count are kept; the new branch is stored |
| BranchDrawer.BranchOf | line_drawer.py:143-172 | a joining feature's branch has its id, the backward anchor labelled 01 first, then the generated points in order, labelled on from the counter |
| BranchDrawer.Apply | line_drawer.py:72-176 | the first feature becomes the only point, labelled 01; a feature without a partner changes nothing; a joining feature appends its generated points after the existing ones, moves the counter past them and stores its branch, anchor labelled 01 first; the positions grow by exactly what the plan places (`Placed`), and the 01, 02, ... numbering is kept |
| BranchDrawer.Run | manyani_mv_line_drawer.py:71-173 | the first pass numbers its points 01, 02, ... in creation order, the first being the first feature's own geometry, and their positions are exactly `Created(steps)`, each plan's placed points in plan order |
| BranchDrawer.BranchSegments | line_drawer.py:183-204 | a branch of n points yields n-1 lines; line i joins point i to point i+1 of the branch, is numbered `next + i`, and renames the label of point i+1 |
| BranchDrawer.Segments | line_drawer.py:180-204 | the line pass yields one line per consecutive point pair over all branches, numbered 2, 3, ... |
| BranchDrawer.FindLabel | line_drawer.py:208-209 | the first point with the given label, or none when no point carries it |
| BranchDrawer.Rename | line_drawer.py:208-212 | the first point labelled `from` is relabelled `to`; every other point is unchanged; positions and count are kept |
| BranchDrawer.Relabel | manyani_mv_line_drawer.py:205-209 | the rename pass keeps every point's position and the number of points |
| BranchDrawer.Draw | line_drawer.py:70-212 | the script fails exactly when some feature's plan fails, and the MV drawer never fails; on success the points' positions are exactly `Created` of the plans, the lines are exactly the line pass over the stored branches, numbered 2, 3, ..., and with distinct branch ids the points are exactly the first pass's |
| BranchDrawer.PlansShape | line_drawer.py:72-79 | only feature 0 starts the point list, and every branch is keyed by its own feature's id |
| BranchDrawer.DrawNumbering | line_drawer.py:72-78 | the first pass numbers its points consecutively from the first feature |
| BranchDrawer.SegmentsAppend | line_drawer.py:181-183 | the lines of one more branch follow the earlier lines, numbered on from them |
| BranchDrawer.RenameSame | line_drawer.py:210-212 | renaming a label to itself changes nothing |
| BranchDrawer.RelabelIdentity | line_drawer.py:208-212 | when every line ends at the point already carrying its number, the rename pass changes nothing |
| BranchDrawer.RunReady | line_drawer.py:143-212 | with distinct branch ids each line's number is that of the point it ends at, and the counter is one ahead of the line count |
| BranchDrawer.DistinctIdsKeepLabels | manyani_mv_line_drawer.py:141-209 | with distinct branch ids the final points are those of the first pass, still numbered 01, 02, ... |
| PolylineDrawer.LvSpan | line_drawer_v1.py:115-119 | an LV span has at least one segment, and a span shorter than 56 is one segment of the whole length |
| PolylineDrawer.Stations | line_drawer_v1.py:103-149 | a span yields `number_of_poles + 1` points from station 0, the control pole itself; it fails exactly on a vertical span |
| PolylineDrawer.Contribution | line_drawer_v1.py:76-152 | a feature without a partner adds nothing; one with a partner adds exactly the station list of its span, and fails exactly on a vertical span |
| PolylineDrawer.AddRun | line_drawer_v1.py:142-152 | new points are numbered on from the counter, which moves past them, and form one more polyline through exactly those points |
| PolylineDrawer.Walk | line_drawer_v1.py:65-152 | the loop numbers points LV01, LV02, ... from the first feature; its polylines are exactly `Runs`, the station lists of the connected features in layer order; the points after the first are the polylines' vertices in order |
| PolylineDrawer.Draw | line_drawer_v1.py:65-152 | the script fails exactly when a connected feature has a vertical span; otherwise the first point is the first feature itself, labelled LV01, the polylines are exactly `Runs` over the whole layer, and the later points are their vertices in order; an empty layer gives nothing |
| PolylineDrawer.VerticalFails | line_drawer_v1.py:103-105 | some feature fails iff some connected feature has equal projected x |
| PolylineDrawer.StationZero | line_drawer_v1.py:128-132 | station 0 is the backward anchor itself |
| PolylineDrawer.StationsGeometry | line_drawer_v1.py:127-136 | entry k of a span's station list is station k: on the line through both anchors, `k*spacing` from the control pole, on the feature's side |
| PolylineDrawer.PolylineStations | line_drawer_v1.py:76-152 | every output polyline is the station list of one feature that has a control pole to connect to |
| PolylineDrawer.PolylineGeometry | line_drawer_v1.py:127-152 | vertex k of every output polyline is station k of some connected feature's span: on its line, `k*spacing` from its control pole, on the feature's side |
| PolylineDrawer.LabelsDistinct | line_drawer_v1.py:142-146 | no two output points share a label |
| GapFiller.Tail | create_points_btw_two_poins.py:66-67 | `text[1:]` drops exactly the first character, and is empty for an empty text |
| GapFiller.FindFid | create_points_btw_two_poins.py:31 | the feature with that fid, none iff there is none |
| GapFiller.GapCount | create_points_btw_two_poins.py:73-83 | `range(n2 - n1 - 1)` makes `n2 - n1 - 1` poles, and none when the numbers are not at least two apart |
| GapFiller.Measure | create_points_btw_two_poins.py:44-76 | succeeds iff the span is not vertical and both labels parse to different numbers; fails with VerticalSpan, else BadLabel of the first label that does not parse (ValueError), else SameNumber for equal numbers (ZeroDivisionError), in that order; on success it carries both numbers, both projected anchors, and the spacing `total / (n2 - n1)` |
| GapFiller.Spread | create_points_btw_two_poins.py:83-113 | the poles between n1 and n2 are numbered `M%03d` from n1+1, belong to "Ntatumbila", carry the spacing as back span, and sit at stations 1, 2, ... |
| GapFiller.Between | create_points_btw_two_poins.py:44-113 | one pair yields the spread of its gap, or the gap's error |
| GapFiller.Parsed | create_points_btw_two_poins.py:66-67 | `int(label[1:])` succeeds iff the tail parses; otherwise it is an error naming the label |
| GapFiller.Outcomes | create_points_btw_two_poins.py:25 | one outcome per feature, in layer order |
| GapFiller.Chain | create_points_btw_two_poins.py:25-113 | the outcomes fail iff some pair fails, with the first failure's error; on success the poles are exactly the successful pairs' poles concatenated in order (`Concat`) |
| GapFiller.Fill | create_points_btw_two_poins.py:25-113 | the script fails iff some pair before the last feature fails, with the first error; on success the new poles are exactly every pair's poles concatenated in layer order, each label parses and its minigrid is "Ntatumbila"; a layer of at most one feature adds nothing |
| GapFiller.PoleNumber | create_points_btw_two_poins.py:66-67 | `int(label[1:])` fails for a label of at most one character, and gives the value of the digits after a one-character prefix |
| GapFiller.PairSpread | create_points_btw_two_poins.py:31-113 | a successful pair found its neighbour fid + 1 and measured the span; its poles are the spread of that gap |
| GapFiller.ConcatStep | create_points_btw_two_poins.py:25-113 | when every pair so far succeeds, each pair appends exactly its own poles, `n2 - n1 - 1` of them |
| GapFiller.GapLabelRoundTrip | create_points_btw_two_poins.py:93 | reading back an `M%03d` label gives its number |
| GapFiller.PoleNumberIgnoresPrefix | create_points_btw_two_poins.py:66-67 | any one-letter prefix before a zero-padded number reads back as that number |
| GapFiller.PairLabels | create_points_btw_two_poins.py:93-101 | every pole of a successful pair has a readable label and minigrid "Ntatumbila" |
| GapFiller.SpreadNumbers | create_points_btw_two_poins.py:70-113 | new numbers lie strictly between n1 and n2, and the last one is n2 - 1 |
| GapFiller.NoGapWithoutRoom | create_points_btw_two_poins.py:73-83 | neighbours whose numbers are not at least two apart get no poles between them |
| GapFiller.SpreadGeometry | create_points_btw_two_poins.py:79-91 | new pole k is station k of the span: on the line between the neighbours, `k*d` from the first |
| GapFiller.SpacingShare | create_points_btw_two_poins.py:76 | the `n2 - n1` equal spacings add back up to the total, and are non-negative for rising numbers |
| GapFiller.MissingNeighbourFails | create_points_btw_two_poins.py:31-34 | a feature before the last whose fid + 1 is not in the layer makes the script fail |
| NearestLinker.Scan | lines_between_points.py:43-57 | none iff no later-id feature exists; else a later-id feature no farther than any other, and strictly nearer than every earlier one |
| NearestLinker.NearestIsFirstNearest | lines_between_points.py:43-57 | the scan picks j iff j is a first nearest later-id feature |
| NearestLinker.LinkFrom | lines_between_points.py:43-73 | no line iff there is no candidate or the nearest is beyond 300; a line joins the feature to exactly the nearest later-id feature the scan found, and carries its length, at most 300 |
| NearestLinker.Offers | lines_between_points.py:25 | one offer per feature, in layer order |
| NearestLinker.Sources | lines_between_points.py:65-72 | the drawing features, in rising order, and all of them |
| NearestLinker.Draw | lines_between_points.py:25-73 | at most one line per feature, each to a later id, no longer than 300, carrying its own length |
| NearestLinker.LargestDrawsNothing | lines_between_points.py:45-47 | the feature with the greatest id draws nothing |
| NearestLinker.CutoffIncluded | lines_between_points.py:66-67 | a nearest feature exactly 300 away is still joined |
| NearestLinker.NoPairTwice | lines_between_points.py:59-73 | with distinct ids no two lines start at the same feature or join the same pair |
| NearestLinker.DrawSource | lines_between_points.py:68-72 | line t is exactly the line that feature's nearest-pole scan offers, for the t-th drawing feature |
| NearestLinker.DrawnExactly | lines_between_points.py:65-72 | every feature with a later neighbour within 300 draws its line |
| Text.DigitsRoundTrip | create_points_btw_two_poins.py:66-67 | reading back the decimal digits of n gives n |
| Text.ParsePadRoundTrip | create_points_btw_two_poins.py:66-67 | `int()` of a zero-padded `{n:0Wd}` text gives n back |
| Text.LabelInjective | line_drawer.py:172 | distinct numbers give distinct labels |
| Text.PadIntWidth | line_drawer.py:96 | a number below 10^W pads to exactly W characters |
| Text.PadInt | line_drawer.py:172 | `{n:0Wd}` is non-empty and starts with a minus sign exactly for a negative number |
| Text.ParseIntShape | create_points_btw_two_poins.py:66-67 | `int()` of a bare run of digits, or of `+` and digits, is their value; of a blank text it fails |
| Text.LabelReadsBack | line_drawer.py:172 | a label starts with its prefix, and the rest reads back as its number |
| Text.Split | export_staking_sheet_to_excel.py:93 | `split` always yields at least one piece |
| Text.SplitFirstPrefix | export_staking_sheet_to_excel.py:93 | the first piece of a split is a prefix of the text |
| Text.SplitPiecesClean | export_staking_sheet_to_excel.py:93 | no piece of a split contains the separator |
| Text.SplitJoin | export_staking_sheet_to_excel.py:93 | joining the pieces of `split` with the separator gives back the text |
| Text.SplitWithoutSeparator | export_staking_sheet_to_excel.py:93 | text without the separator splits into one piece |
| Text.SplitAfterPiece | export_staking_sheet_to_excel.py:93 | the cut falls at the first occurrence of the separator |
| StakingSheet.Show | export_staking_sheet_to_excel.py:85-93 | `str()` of a string is the string; of an integer it is non-empty and starts with '-' exactly when the integer is negative |
| StakingSheet.ShowReadsBack | export_staking_sheet_to_excel.py:93-94 | `int(str(n))` is n |
| StakingSheet.TruthyExactly | export_staking_sheet_to_excel.py:97-108 | a value is false exactly when it is NULL, a numeric zero or the empty string |
| StakingSheet.OrEmpty | export_staking_sheet_to_excel.py:52-56 | NULL becomes the empty string; anything else is kept |
| StakingSheet.LineType | export_staking_sheet_to_excel.py:32 | the first two characters of the layer name, or all of a shorter one |
| StakingSheet.Height | export_staking_sheet_to_excel.py:59-65 | one of three classes; "30'/6" iff "30ft", "35'/5" iff "35ft" |
| StakingSheet.Structure | export_staking_sheet_to_excel.py:70-91 | a NULL J10 gives empty cells; a zero J10 gives J19 units; a zero J19 gives J10 units; otherwise the quantity is 1 |
| StakingSheet.StructureComposite | export_staking_sheet_to_excel.py:80-91 | two non-zero counts give `"<a>J10 + <b>J19"`, a count of 1 left out, and quantity 1 |
| StakingSheet.StructureSingle | export_staking_sheet_to_excel.py:74-79 | a zero count selects the other unit alone |
| StakingSheet.StructureNullJ19 | export_staking_sheet_to_excel.py:70-91 | a NULL J19 beside a non-zero integer J10 count gives quantity 1 and the unit `"<a>J10 + <NULL's text>J19"`, a count of 1 left out, because only J10 is tested for NULL |
| StakingSheet.Guy | export_staking_sheet_to_excel.py:93-95 | fails iff the text splits into two pieces whose first is not an integer; else an integer count, or empty count and type |
| StakingSheet.GuyRoundTrip | export_staking_sheet_to_excel.py:93-95 | `"<n> x <type>"` reads back as count n and that type |
| StakingSheet.GuyCountNotInteger | export_staking_sheet_to_excel.py:94 | a non-integer count before " x " fails with that count |
| StakingSheet.NoGuyWithoutSeparator | export_staking_sheet_to_excel.py:93-95 | a guy text without " x " gives an empty count and type |
| StakingSheet.NullGuy | export_staking_sheet_to_excel.py:93-95 | a NULL guy, whose text is "NULL" or "None", gives an empty count and type |
| StakingSheet.ToRow | export_staking_sheet_to_excel.py:44-112 | fewer than 18 attributes fail; otherwise it fails iff the guy fails; pole number, latitude, longitude, line angle, primary structure and conductor are the attributes at 1, 12, 13, 16, 17 and 11; height, structure and guy cells come from their readers; NULL grounding, streetlight, K10 and K30 become ''; the primary back span is empty unless the line type is "mv" and the back span empty unless it is "lv"; guy lead and anchor type are set iff the guy count is truthy; anchor count equals guy count; K10/K30 units follow their counts |
| StakingSheet.GuyEquipment | export_staking_sheet_to_excel.py:97-105 | a guyed MV pole gets lead 11 and anchor F1-2; any other gets 7 and F1-1 |
| StakingSheet.BackSpanLineTypes | export_staking_sheet_to_excel.py:48-68 | a layer that is neither "mv" nor "lv" fills neither back-span column |
| StakingSheet.Cells | export_staking_sheet_to_excel.py:110-112 | 22 values, pole number first and streetlight last |
| StakingSheet.Zip | export_staking_sheet_to_excel.py:114 | the keys are exactly the headers, and with distinct headers each maps to its own value |
| StakingSheet.Record | export_staking_sheet_to_excel.py:114 | a row record has 22 entries, each header mapped to its own cell |
| StakingSheet.HeadersDistinct | export_staking_sheet_to_excel.py:19-25 | the 22 column titles are distinct |
| StakingSheet.Insert | export_staking_sheet_to_excel.py:34 | insertion adds exactly the one feature |
| StakingSheet.InsertSorted | export_staking_sheet_to_excel.py:34 | inserting into a sorted list keeps it sorted by pole id |
| StakingSheet.SortById | export_staking_sheet_to_excel.py:34 | the result is a permutation of the features, sorted by pole id |
| StakingSheet.Ordered | export_staking_sheet_to_excel.py:33-34 | an "mv" layer is sorted by pole id; any other keeps layer order; always a permutation |
| StakingSheet.Outcomes | export_staking_sheet_to_excel.py:43 | one row outcome per feature, in order |
| StakingSheet.Rows | export_staking_sheet_to_excel.py:43-114 | fails iff some row fails, with the first error; otherwise exactly the rows, in order |
| StakingSheet.Sheet | export_staking_sheet_to_excel.py:32-114 | fails iff some feature's row fails, whatever the order; otherwise one row per feature, in the sorted or layer order |
| StakingSheet.SameFailures | export_staking_sheet_to_excel.py:34 | reordering the features does not change whether some row fails |
| StakingSheet.LvLayerKeepsOrder | export_staking_sheet_to_excel.py:12-34 | for the configured layer "lv_poles - design_grid_extension" the line type is "lv" and any features keep their layer order; for "mv_poles" they come out sorted by pole id |

## Left out

- Host calls are parameters of the `Host` datatype: the coordinate
  transforms, `QgsDistanceArea.measureLine`, `math.sqrt` and the planar
  distance in EPSG:32629 used by lines_between_points.py. The inverse
  transform back to the layer CRS is a `Grid` tag, not a computation.
- Floating point is modelled as exact reals. `float('inf')`, NaN and
  rounding are not modelled. The vertical MV span's NaN y is the `GridNoY`
  tag.
- Layer creation, field definitions, `addFeature`, `print` warnings,
  `QgsProject` lookups, pandas, the Excel file, `os.startfile` and the
  timestamped file name are I/O and are left out. The output is the
  sequence of features each script would add, or the rows it would write.
- Line Angle Calculation.py, buffer.py and create_buffer.py are not part of
  this model.
- util_services.py's `string_to_float` is not used by the modelled scripts.
- `Text.ParseInt`: models `int()` on ASCII digits with an optional sign and
  surrounding space, tab, newline, carriage return, vertical tab and form
  feed. Underscores between digits, non-ASCII digits, the separators
  U+001C to U+001F and non-ASCII spaces are not accepted.
- Attribute values the drawers read (`control_pole`, `connecting_cp`) are
  strings. A NULL attribute there is not modelled.
- `GapFiller.PoleNumber`: `pole_number` is a string. A NULL `pole_number`,
  on which `[1:]` raises TypeError (create_points_btw_two_poins.py:62-67),
  is not modelled, so `GapFiller.Measure` has no failure for it.
- `Spacing.ResolveSpanWithMin`: for a negative maximum the count is computed
  by the same floor formula, but only the exact share of a non-zero count is
  proved. None of the modelled scripts calls this copy; its default maximum
  is 55.
- `Spacing.ResolveSpan` requires a positive maximum. Every caller passes a
  positive constant; Python would raise on a maximum of zero.
- `StakingSheet.Show`: the text of a float and the text of NULL come from
  the `Formats` parameter. A float's `str()` is not Python's shortest-repr
  algorithm, and NULL's text is whatever the host gives (PyQGIS's NULL
  prints "NULL", Python's `None` prints "None").
- `StakingSheet.SortById`: pole ids are integers, so the case where
  `sorted` raises TypeError on mixed types is not modelled.
- `StakingSheet.SortById`: proves a sorted permutation, not that `sorted`
  is stable. Features with equal pole ids are not shown to keep their
  layer order.
- `StakingSheet.Structure`: as written, the script tests `j_10 == None`
  twice and never tests J19 for NULL. The model keeps that. A NULL J19 with
  a non-zero J10 therefore formats the text of NULL into the unit
  (`StakingSheet.StructureNullJ19`).
- `NearestLinker.LinkFrom`: `if nearest_point:` is read as "a nearest
  point was found". A found point whose coordinates Python treats as false
  is not modelled. The initial `inf` minimum is read as "no candidate yet".
- `GapFiller.FindFid`: `getFeature` of a missing fid is modelled as absent.
  The script then raises ValueError (`MissingNeighbour`).
- `BranchDrawer.DistinctIdsKeepLabels`: proves the label-keeping property
  only for layers whose branch ids are distinct. With a repeated id the dict
  entry is overwritten in place. The rename pass then can relabel points;
  the model computes that case but states no closed form for it.

=== FILE: branch_drawer.dfy ===
/** The branch-dictionary drawers: line_drawer.py ("P" labels) and
    manyani_mv_line_drawer.py ("MV" labels). Each walks the control-pole
    layer once; the first feature becomes pole 01, every later feature whose
    `connecting_cp` names a control pole becomes a branch from that pole to
    the feature, filled with evenly spaced new poles numbered on from a
    global counter. A second pass emits one line per consecutive pair of
    branch points, numbered from 2, and renames the point each line ends at
    to the line's number. */
module BranchDrawer {
  import opened Wrappers
  import opened Text
  import opened Spacing
  import opened Projection

  /** A feature of the control-pole layer, in the layer's geographic CRS. */
  datatype Anchor = Anchor(controlPole: string, connectingCp: string, at: XY)

  /** line_drawer.py: "P" labels, tiered limits, slope raises on a vertical
      span, the last point of a branch is the feature itself.
      manyani_mv_line_drawer.py: "MV" labels, limits (60, 115), a vertical
      span steps with `delta_x = 0`, no snapping. */
  datatype Drawer = PoleDrawer | MvDrawer

  /** A point of the output: its `pole_number` and geometry. Branch lists
      hold the same shape. */
  datatype Entry = Entry(poleNumber: string, at: Vertex)

  /** One value of the `branch_points` dictionary, with its key. */
  datatype Branch = Branch(id: string, entries: seq<Entry>)

  /** A line feature: `branch_id`, `pole_number`, and its two end points. */
  datatype Line = Line(branchId: string, poleNumber: string, from: Vertex, to: Vertex)

  datatype Drawing = Drawing(points: seq<Entry>, lines: seq<Line>)

  /** The ZeroDivisionError line_drawer.py raises computing the slope of a
      span whose projected x coordinates agree; it ends the script. */
  datatype DrawError = VerticalSpan(controlPole: string)

  /** The state carried across features: `pointFeatures`, the last entry of
      `poleNumbers`, and `branch_points` in insertion order. */
  datatype Progress = Progress(points: seq<Entry>, last: int, branches: seq<Branch>)

  /** A line of the second pass with the label of the branch point it ends
      at, which is the label the rename step searches for. */
  datatype Segment = Segment(line: Line, endLabel: string)

  /** What one feature contributes, fixed before any numbering: the first
      feature starts the point list, a feature whose `connecting_cp` names
      no control pole is skipped, and any other opens the branch `id` from
      the backward anchor `head` through the generated points `gen`. */
  datatype Step = Start(at: XY) | Skip | Join(id: string, head: XY, gen: seq<Vertex>)

  function Prefix(dr: Drawer): string {
    if dr == PoleDrawer then "P" else "MV"
  }

  /** `f'{prefix}{n:02d}'`. */
  function PoleLabel(dr: Drawer, n: int): string {
    Label(Prefix(dr), n, 2)
  }

  /** `f'{control_pole} - {connecting_cp}'`. */
  function BranchId(a: Anchor): string {
    a.controlPole + " - " + a.connectingCp
  }

  /** The filter `"control_pole" = '<id>'` read with `next(..., None)`:
      the first feature in layer order whose control pole is `id`. */
  function FindPole(layer: seq<Anchor>, id: string): (r: Option<nat>)
    ensures r.None? <==> forall i :: 0 <= i < |layer| ==> layer[i].controlPole != id
    ensures r.Some? ==> r.value < |layer| && layer[r.value].controlPole == id
    ensures r.Some? ==> forall i :: 0 <= i < r.value ==> layer[i].controlPole != id
  {
    if |layer| == 0 then None
    else if layer[0].controlPole == id then Some(0)
    else match FindPole(layer[1..], id)
      case None => None
      case Some(i) => Some(i + 1)
  }

  // ----- One branch -----

  /** The UTM zone chosen from the forward feature's longitude. */
  function Zone(a: Anchor): int {
    UtmZone(a.at.x)
  }

  /** The span limits each drawer passes to `calculate_points_distance`. */
  function TierOf(dr: Drawer, a: Anchor, total: real): (t: Tier)
    ensures t.maxDistance > 0.0
  {
    if dr == PoleDrawer then PoleTier(a.controlPole, total) else MvTier
  }

  /** `(x1, y1)`: the backward anchor in the forward feature's UTM zone. */
  function Backward(a: Anchor, cp: Anchor, h: Host): XY {
    h.toGrid(Zone(a), cp.at)
  }

  /** `(x2, y2)`: the forward feature in its own UTM zone. */
  function Forward(a: Anchor, h: Host): XY {
    h.toGrid(Zone(a), a.at)
  }

  /** `calculate_points_distance` on the geodesic length of the span, with
      the drawer's limits. */
  function SpanOf(dr: Drawer, a: Anchor, cp: Anchor, h: Host): (s: Span)
    ensures s.count >= 1
    ensures h.measure(a.at, cp.at) >= 0.0 ==> s.spacing >= 0.0
  {
    var total := h.measure(a.at, cp.at);
    var t := TierOf(dr, a, total);
    ResolveSpanBounds(total, t.minDistance, t.maxDistance);
    ResolveTier(total, t)
  }

  /** The points generated along the span from `cp` (backward) to `a`
      (forward), before numbering. */
  function Generated(dr: Drawer, a: Anchor, cp: Anchor, h: Host): (r: Result<seq<Vertex>, DrawError>)
    requires IsSqrt(h.sqrt)
    ensures r.Failure? <==> dr == PoleDrawer && Backward(a, cp, h).x == Forward(a, h).x
    ensures r.Success? ==> |r.value| == SpanOf(dr, a, cp, h).count
  {
    var g1 := Backward(a, cp, h);
    var g2 := Forward(a, h);
    var s := SpanOf(dr, a, cp, h);
    var n := s.count;
    if g1.x == g2.x then
      if dr == PoleDrawer then Failure(VerticalSpan(a.controlPole))
      else Success(seq(n, _ => GridNoY(g1.x)))
    else if dr == PoleDrawer then
      Success(seq(n, i requires 0 <= i < n =>
        if i == n - 1 then Native(a.at) else Grid(Along(g1, g2, s.spacing, i + 1, h.sqrt))))
    else
      Success(seq(n, i requires 0 <= i < n => Grid(Along(g1, g2, s.spacing, i + 1, h.sqrt))))
  }

  /** The control pole the feature at `index` connects back to, if any. */
  function Partner(layer: seq<Anchor>, index: nat): (r: Option<Anchor>)
    requires index < |layer|
    ensures r.Some? ==> r.value in layer && r.value.controlPole == layer[index].connectingCp
    ensures r.Some? ==> exists j :: (0 <= j < |layer| && r.value == layer[j]
      && forall i :: 0 <= i < j ==> layer[i].controlPole != layer[index].connectingCp)
    ensures r.None? <==> forall i :: 0 <= i < |layer| ==> layer[i].controlPole != layer[index].connectingCp
  {
    match FindPole(layer, layer[index].connectingCp)
    case None => None
    case Some(j) => Some(layer[j])
  }

  /** What the feature at `index` contributes; line_drawer.py raises on a
      vertical span, the MV drawer never raises. */
  function Plan(dr: Drawer, layer: seq<Anchor>, h: Host, index: nat): (r: Result<Step, DrawError>)
    requires IsSqrt(h.sqrt) && index < |layer|
    ensures index == 0 ==> r == Success(Start(layer[0].at))
    ensures index > 0 && Partner(layer, index).None? ==> r == Success(Skip)
    ensures r.Failure? <==>
      && dr == PoleDrawer && index > 0 && Partner(layer, index).Some?
      && Backward(layer[index], Partner(layer, index).value, h).x == Forward(layer[index], h).x
    ensures r.Success? && r.value.Join? ==>
      && index > 0
      && r.value.id == BranchId(layer[index])
      && |r.value.gen| >= 1
      && Partner(layer, index).Some?
      && r.value.head == Backward(layer[index], Partner(layer, index).value, h)
      && Generated(dr, layer[index], Partner(layer, index).value, h) == Success(r.value.gen)
  {
    if index == 0 then Success(Start(layer[0].at))
    else match Partner(layer, index)
      case None => Success(Skip)
      case Some(cp) =>
        var a := layer[index];
        var gen :- Generated(dr, a, cp, h);
        Success(Join(BranchId(a), Backward(a, cp, h), gen))
  }

  /** The plans of the first `k` features; the first exception ends the
      script, so there are either all `k` plans or an error. */
  function Plans(dr: Drawer, layer: seq<Anchor>, h: Host, k: nat): (r: Result<seq<Step>, DrawError>)
    requires IsSqrt(h.sqrt) && k <= |layer|
    ensures r.Success? ==>
      && |r.value| == k
      && forall i :: 0 <= i < k ==> Plan(dr, layer, h, i) == Success(r.value[i])
    ensures r.Failure? <==> exists i :: 0 <= i < k && Plan(dr, layer, h, i).Failure?
  {
    if k == 0 then Success([])
    else
      var init :- Plans(dr, layer, h, k - 1);
      var s :- Plan(dr, layer, h, k - 1);
      Success(init + [s])
  }

  /** `branch_points[branch_id] = [...]`: a new key goes to the end, an
      existing key keeps its place and gets the new list. */
  function Put(bs: seq<Branch>, b: Branch): (r: seq<Branch>)
    ensures (forall i :: 0 <= i < |bs| ==> bs[i].id != b.id) ==> r == bs + [b]
    ensures forall i :: 0 <= i < |bs| && bs[i].id == b.id ==> |r| == |bs|
    ensures forall i :: (0 <= i < |bs| && bs[i].id == b.id
      && (forall j :: 0 <= j < i ==> bs[j].id != b.id)) ==> r == bs[i := b]
    ensures b in r
  {
    if |bs| == 0 then [b]
    else if bs[0].id == b.id then [b] + bs[1..]
    else [bs[0]] + Put(bs[1..], b)
  }

  // ----- First pass -----

  /** The points are numbered 01, 02, ... in order and the counter is the
      number of points. */
  ghost predicate Numbered(dr: Drawer, st: Progress) {
    && |st.points| == st.last
    && forall i :: 0 <= i < |st.points| ==> st.points[i].poleNumber == PoleLabel(dr, i + 1)
  }

  /** The branch list of a joining feature: the backward anchor labelled
      01, then the generated points numbered on from `last`. */
  function BranchOf(dr: Drawer, id: string, head: XY, gen: seq<Vertex>, last: int): (b: Branch)
    ensures b.id == id && |b.entries| == |gen| + 1
    ensures b.entries[0] == Entry(PoleLabel(dr, 1), Grid(head))
    ensures forall i :: 0 <= i < |gen| ==> b.entries[i + 1].at == gen[i]
    ensures forall i :: 1 <= i < |b.entries| ==> b.entries[i].poleNumber == PoleLabel(dr, last + i)
  {
    Branch(id, [Entry(PoleLabel(dr, 1), Grid(head))]
               + seq(|gen|, i requires 0 <= i < |gen| => Entry(PoleLabel(dr, last + 1 + i), gen[i])))
  }

  /** The geometry of a run of points. */
  function Vertices(es: seq<Entry>): (r: seq<Vertex>)
    ensures |r| == |es|
    ensures forall i :: 0 <= i < |es| ==> r[i] == es[i].at
  {
    seq(|es|, i requires 0 <= i < |es| => es[i].at)
  }

  lemma VerticesConcat(xs: seq<Entry>, ys: seq<Entry>)
    ensures Vertices(xs + ys) == Vertices(xs) + Vertices(ys)
  {
  }

  /** Where a plan puts new points, whatever they are labelled: the first
      feature's own geometry, nothing, or the generated points of a branch. */
  function Placed(s: Step): seq<Vertex> {
    match s
    case Start(at) => [Native(at)]
    case Skip => []
    case Join(_, _, gen) => gen
  }

  /** An independent account of the first pass's point list: every plan's
      placed points, plan after plan. */
  function Created(steps: seq<Step>): seq<Vertex> {
    if steps == [] then [] else Created(steps[..|steps| - 1]) + Placed(steps[|steps| - 1])
  }

  /** One iteration of the feature loop on a computed plan: the first
      feature is labelled 01 and resets the counter, a skipped feature
      changes nothing, and a joining feature appends its generated points
      (not the backward anchor, which is only in the branch list), moves the
      counter past them and stores its branch under its id. */
  function Apply(dr: Drawer, st: Progress, s: Step): (r: Progress)
    ensures st.points <= r.points
    ensures Vertices(r.points) == Vertices(st.points) + Placed(s)
    ensures Numbered(dr, st) && (s.Start? ==> st.points == []) ==> Numbered(dr, r)
    ensures s.Skip? ==> r == st
    ensures s.Start? ==>
      && r.points == st.points + [Entry(PoleLabel(dr, 1), Native(s.at))]
      && r.last == 1 && r.branches == st.branches
    ensures s.Join? ==>
      var b := BranchOf(dr, s.id, s.head, s.gen, st.last);
      && r.points == st.points + b.entries[1..]
      && r.last == st.last + |s.gen|
      && r.branches == Put(st.branches, b)
      && b.entries[0] == Entry(PoleLabel(dr, 1), Grid(s.head))
  {
    match s
    case Start(at) =>
      var r := Progress(st.points + [Entry(PoleLabel(dr, 1), Native(at))], 1, st.branches);
      VerticesConcat(st.points, [Entry(PoleLabel(dr, 1), Native(at))]);
      r
    case Skip => st
    case Join(id, head, gen) =>
      var b := BranchOf(dr, id, head, gen, st.last);
      NumberedExtend(dr, st, b);
      VerticesConcat(st.points, b.entries[1..]);
      assert Vertices(b.entries[1..]) == gen;
      Extend(st, b)
  }

  /** A branch's new points join the point list, the counter moves past
      them and the branch is stored under its id. */
  function Extend(st: Progress, b: Branch): Progress
    requires |b.entries| >= 1
  {
    Progress(st.points + b.entries[1..], st.last + |b.entries| - 1, Put(st.branches, b))
  }

  lemma NumberedExtend(dr: Drawer, st: Progress, b: Branch)
    requires |b.entries| >= 1
    requires forall i :: 1 <= i < |b.entries| ==> b.entries[i].poleNumber == PoleLabel(dr, st.last + i)
    ensures Numbered(dr, st) ==> Numbered(dr, Extend(st, b))
  {
    var r := Extend(st, b);
    if Numbered(dr, st) {
      forall i | 0 <= i < |r.points|
        ensures r.points[i].poleNumber == PoleLabel(dr, i + 1)
      {
        if i >= |st.points| {
          assert r.points[i] == b.entries[i - |st.points| + 1];
        }
      }
    }
  }

  /** Only the first plan may start the point list. */
  ghost predicate StartsFirst(steps: seq<Step>) {
    forall i :: 0 < i < |steps| ==> !steps[i].Start?
  }

  /** The feature loop over a sequence of plans, from no points and no
      branches. Its points are always numbered 01, 02, ... in order, the
      first being the first feature itself. */
  function Run(dr: Drawer, steps: seq<Step>): (r: Progress)
    ensures StartsFirst(steps) ==> Numbered(dr, r)
    ensures Vertices(r.points) == Created(steps)
    ensures |steps| > 0 && steps[0].Start? ==>
      |r.points| >= 1 && r.points[0] == Entry(PoleLabel(dr, 1), Native(steps[0].at))
    decreases |steps|
  {
    if steps == [] then Progress([], 0, [])
    else
      var init := steps[..|steps| - 1];
      var st := Run(dr, init);
      assert StartsFirst(steps) ==> StartsFirst(init);
      assert |init| > 0 ==> init[0] == steps[0];
      assert steps[|steps| - 1].Start? && StartsFirst(steps) ==> init == [];
      Apply(dr, st, steps[|steps| - 1])
  }

  // ----- Second pass -----

  /** Number of lines a branch list yields: `range(len(points) - 1)`. */
  function LineCount(b: Branch): nat {
    if |b.entries| == 0 then 0 else |b.entries| - 1
  }

  function TotalLines(bs: seq<Branch>): nat {
    if bs == [] then 0 else TotalLines(bs[..|bs| - 1]) + LineCount(bs[|bs| - 1])
  }

  /** The lines of one branch, numbered on from `next`; line i joins
      entry i to entry i + 1. */
  function BranchSegments(dr: Drawer, b: Branch, next: int): (r: seq<Segment>)
    ensures |r| == LineCount(b)
    ensures forall i {:trigger r[i]} :: 0 <= i < |r| ==>
      && r[i].line.branchId == b.id
      && r[i].line.poleNumber == PoleLabel(dr, next + i)
      && r[i].line.from == b.entries[i].at
      && r[i].line.to == b.entries[i + 1].at
      && r[i].endLabel == b.entries[i + 1].poleNumber
  {
    seq(LineCount(b), i requires 0 <= i < LineCount(b) =>
      Segment(Line(b.id, PoleLabel(dr, next + i), b.entries[i].at, b.entries[i + 1].at), b.entries[i + 1].poleNumber))
  }

  /** The lines of all branches in dictionary order; the counter runs on
      across branches, so the last branch's lines are numbered after all
      the others'. */
  function Segments(dr: Drawer, bs: seq<Branch>, next: int): (r: seq<Segment>)
    ensures |r| == TotalLines(bs)
    ensures forall j :: 0 <= j < |r| ==> r[j].line.poleNumber == PoleLabel(dr, next + j)
    decreases |bs|
  {
    if bs == [] then []
    else
      var init := bs[..|bs| - 1];
      Segments(dr, init, next) + BranchSegments(dr, bs[|bs| - 1], next + TotalLines(init))
  }

  /** The first point whose current label is `label`. */
  function FindLabel(points: seq<Entry>, pole: string): (r: Option<nat>)
    ensures r.Some? ==> r.value < |points| && points[r.value].poleNumber == pole
    ensures r.Some? ==> forall i :: 0 <= i < r.value ==> points[i].poleNumber != pole
    ensures r.None? ==> forall i :: 0 <= i < |points| ==> points[i].poleNumber != pole
  {
    if |points| == 0 then None
    else if points[0].poleNumber == pole then Some(0)
    else match FindLabel(points[1..], pole)
      case None => None
      case Some(i) => Some(i + 1)
  }

  /** The rename after emitting a line: the first point labelled `from`, if
      any, is relabelled `to`. */
  function Rename(points: seq<Entry>, from: string, to: string): (r: seq<Entry>)
    ensures |r| == |points|
    ensures forall i :: 0 <= i < |r| ==> r[i].at == points[i].at
    ensures forall i :: 0 <= i < |r| ==>
      (points[i].poleNumber == from && (forall j :: 0 <= j < i ==> points[j].poleNumber != from)) ==>
        r[i].poleNumber == to
    ensures forall i :: 0 <= i < |r| ==>
      (points[i].poleNumber != from || exists j :: 0 <= j < i && points[j].poleNumber == from) ==>
        r[i] == points[i]
  {
    match FindLabel(points, from)
    case None => points
    case Some(i) => points[i := points[i].(poleNumber := to)]
  }

  /** All renames of the second pass, in line order. */
  function Relabel(points: seq<Entry>, segs: seq<Segment>): (r: seq<Entry>)
    ensures |r| == |points|
    ensures forall i :: 0 <= i < |r| ==> r[i].at == points[i].at
    decreases |segs|
  {
    if segs == [] then points
    else Relabel(Rename(points, segs[0].endLabel, segs[0].line.poleNumber), segs[1..])
  }

  function LinesOf(segs: seq<Segment>): (r: seq<Line>)
    ensures |r| == |segs|
    ensures forall j :: 0 <= j < |r| ==> r[j] == segs[j].line
  {
    seq(|segs|, j requires 0 <= j < |segs| => segs[j].line)
  }

  /** The whole script: the feature loop, then the line pass numbered from
      2 with its renames. */
  function Draw(dr: Drawer, layer: seq<Anchor>, h: Host): (r: Result<Drawing, DrawError>)
    requires IsSqrt(h.sqrt)
    ensures r.Failure? <==> exists i :: 0 <= i < |layer| && Plan(dr, layer, h, i).Failure?
    ensures dr == MvDrawer ==> r.Success?
    ensures r.Success? ==>
      var steps := Plans(dr, layer, h, |layer|).value;
      var st := Run(dr, steps);
      && Vertices(r.value.points) == Created(steps)
      && |r.value.lines| == TotalLines(st.branches)
      && r.value.lines == LinesOf(Segments(dr, st.branches, 2))
      && (forall j :: 0 <= j < |r.value.lines| ==> r.value.lines[j].poleNumber == PoleLabel(dr, 2 + j))
    ensures r.Success? && DistinctBranchIds(layer) ==>
      r.value.points == Run(dr, Plans(dr, layer, h, |layer|).value).points
  {
    var steps :- Plans(dr, layer, h, |layer|);
    var st := Run(dr, steps);
    var segs := Segments(dr, st.branches, 2);
    var points := Relabel(st.points, segs);
    assert Vertices(points) == Vertices(st.points);
    assert DistinctBranchIds(layer) ==> points == st.points by {
      if DistinctBranchIds(layer) {
        PlansDistinct(dr, layer, h);
        RunReady(dr, steps);
        RelabelIdentity(st.points, segs);
      }
    }
    Success(Drawing(points, LinesOf(segs)))
  }

  // ----- Properties -----

  /** The plans of a layer start with its first feature and never start
      again; every branch is keyed by its own feature's id. */
  lemma PlansShape(dr: Drawer, layer: seq<Anchor>, h: Host)
    requires IsSqrt(h.sqrt)
    requires Plans(dr, layer, h, |layer|).Success?
    ensures var steps := Plans(dr, layer, h, |layer|).value;
      && StartsFirst(steps)
      && (|layer| > 0 ==> steps[0] == Start(layer[0].at))
      && forall i :: 0 <= i < |steps| && steps[i].Join? ==> i > 0 && steps[i].id == BranchId(layer[i])
  {
    var steps := Plans(dr, layer, h, |layer|).value;
    forall i | 0 <= i < |steps|
      ensures Plan(dr, layer, h, i) == Success(steps[i])
    {
    }
  }

  /** Whatever the layer, the first pass numbers its points 01, 02, ... in
      creation order, the first point being the first feature itself. */
  lemma DrawNumbering(dr: Drawer, layer: seq<Anchor>, h: Host)
    requires IsSqrt(h.sqrt)
    requires Plans(dr, layer, h, |layer|).Success?
    ensures var st := Run(dr, Plans(dr, layer, h, |layer|).value);
      && Numbered(dr, st)
      && (|layer| > 0 ==> |st.points| >= 1 && st.points[0] == Entry(PoleLabel(dr, 1), Native(layer[0].at)))
  {
    PlansShape(dr, layer, h);
  }

  /** Every generated point of a branch: a projected station of the span,
      except that line_drawer.py places the last one on the feature itself,
      and a vertical MV span keeps every point on x = x1 with no y. */
  lemma GeneratedVertices(dr: Drawer, a: Anchor, cp: Anchor, h: Host, i: nat)
    requires IsSqrt(h.sqrt)
    requires Generated(dr, a, cp, h).Success?
    requires i < |Generated(dr, a, cp, h).value|
    ensures var gen := Generated(dr, a, cp, h).value;
      var g1 := Backward(a, cp, h);
      var g2 := Forward(a, h);
      var d := SpanOf(dr, a, cp, h).spacing;
      && (dr == PoleDrawer && i == |gen| - 1 ==> gen[i] == Native(a.at))
      && (dr == PoleDrawer && i < |gen| - 1 ==> g1.x != g2.x && gen[i] == Grid(Along(g1, g2, d, i + 1, h.sqrt)))
      && (dr == MvDrawer && g1.x == g2.x ==> gen[i] == GridNoY(g1.x))
      && (dr == MvDrawer && g1.x != g2.x ==> gen[i] == Grid(Along(g1, g2, d, i + 1, h.sqrt)))
  {
  }

  /** The line pass over one more branch: its lines follow the others'. */
  lemma SegmentsAppend(dr: Drawer, bs: seq<Branch>, b: Branch, next: int)
    ensures TotalLines(bs + [b]) == TotalLines(bs) + LineCount(b)
    ensures Segments(dr, bs + [b], next) == Segments(dr, bs, next) + BranchSegments(dr, b, next + TotalLines(bs))
  {
    assert (bs + [b])[..|bs|] == bs;
  }

  /** Each line ends at a point that carries the line's own number. */
  ghost predicate SelfLabelled(segs: seq<Segment>) {
    forall j :: 0 <= j < |segs| ==> segs[j].endLabel == segs[j].line.poleNumber
  }

  /** Every line of the second pass ends at the point that already carries
      the line's own label. */
  ghost predicate SelfNumbered(dr: Drawer, bs: seq<Branch>) {
    SelfLabelled(Segments(dr, bs, 2))
  }

  lemma SelfLabelledConcat(xs: seq<Segment>, ys: seq<Segment>)
    requires SelfLabelled(xs) && SelfLabelled(ys)
    ensures SelfLabelled(xs + ys)
  {
    forall j | 0 <= j < |xs + ys|
      ensures (xs + ys)[j].endLabel == (xs + ys)[j].line.poleNumber
    {
      if j >= |xs| {
        assert (xs + ys)[j] == ys[j - |xs|];
      }
    }
  }

  /** A branch numbered on from `last` yields lines numbered on from
      `last + 1`, each ending at the point with its own number. */
  lemma BranchSelfLabelled(dr: Drawer, b: Branch, last: int)
    requires forall i :: 1 <= i < |b.entries| ==> b.entries[i].poleNumber == PoleLabel(dr, last + i)
    ensures SelfLabelled(BranchSegments(dr, b, last + 1))
  {
    var segs := BranchSegments(dr, b, last + 1);
    forall i | 0 <= i < |segs|
      ensures segs[i].endLabel == segs[i].line.poleNumber
    {
      assert segs[i].endLabel == b.entries[i + 1].poleNumber;
      assert last + (i + 1) == last + 1 + i;
    }
  }

  /** A branch numbered on from a counter one ahead of the line count keeps
      every line's end point labelled with the line's own number. */
  lemma SelfNumberedAppend(dr: Drawer, bs: seq<Branch>, b: Branch, last: int)
    requires SelfNumbered(dr, bs) && last == 1 + TotalLines(bs)
    requires forall i :: 1 <= i < |b.entries| ==> b.entries[i].poleNumber == PoleLabel(dr, last + i)
    ensures SelfNumbered(dr, bs + [b])
  {
    SegmentsAppend(dr, bs, b, 2);
    BranchSelfLabelled(dr, b, last);
    SelfLabelledConcat(Segments(dr, bs, 2), BranchSegments(dr, b, last + 1));
  }

  /** Branch ids of the non-root features are pairwise distinct. */
  ghost predicate DistinctBranchIds(layer: seq<Anchor>) {
    forall i, j :: 1 <= i < j < |layer| ==> BranchId(layer[i]) != BranchId(layer[j])
  }

  /** No two joining plans share a branch id. */
  ghost predicate DistinctJoins(steps: seq<Step>) {
    forall i, j :: 0 <= i < j < |steps| && steps[i].Join? && steps[j].Join? ==> steps[i].id != steps[j].id
  }

  /** `id` is the id of one of the joining plans. */
  ghost predicate Joined(steps: seq<Step>, id: string) {
    exists i :: 0 <= i < |steps| && steps[i].Join? && steps[i].id == id
  }

  /** What the first pass keeps true when branch ids are distinct: every
      stored branch came from a plan, the counter is one ahead of the line
      count once started, and each line's number is its end point's. */
  ghost predicate LinePassReady(dr: Drawer, steps: seq<Step>, st: Progress) {
    && (forall t :: 0 <= t < |st.branches| ==> Joined(steps, st.branches[t].id))
    && (|steps| > 0 ==> st.last == 1 + TotalLines(st.branches))
    && SelfNumbered(dr, st.branches)
  }

  /** A branch whose id is new is appended. */
  lemma PutFresh(bs: seq<Branch>, b: Branch)
    requires forall t :: 0 <= t < |bs| ==> bs[t].id != b.id
    ensures Put(bs, b) == bs + [b]
  {
  }

  /** Appending a plan keeps every earlier plan's id joined. */
  lemma JoinedGrows(steps: seq<Step>, s: Step, id: string)
    requires Joined(steps, id)
    ensures Joined(steps + [s], id)
  {
    var i :| 0 <= i < |steps| && steps[i].Join? && steps[i].id == id;
    assert (steps + [s])[i] == steps[i];
  }

  /** Every branch stored so far stays joined when a plan is appended. */
  lemma BranchesStayJoined(init: seq<Step>, s: Step, bs: seq<Branch>)
    requires forall t :: 0 <= t < |bs| ==> Joined(init, bs[t].id)
    ensures forall t :: 0 <= t < |bs| ==> Joined(init + [s], bs[t].id)
  {
    forall t | 0 <= t < |bs|
      ensures Joined(init + [s], bs[t].id)
    {
      JoinedGrows(init, s, bs[t].id);
    }
  }

  /** An id no plan joined is the id of no stored branch. */
  lemma FreshId(init: seq<Step>, bs: seq<Branch>, id: string)
    requires forall i :: 0 <= i < |init| && init[i].Join? ==> init[i].id != id
    requires forall t :: 0 <= t < |bs| ==> Joined(init, bs[t].id)
    ensures forall t :: 0 <= t < |bs| ==> bs[t].id != id
  {
    forall t | 0 <= t < |bs|
      ensures bs[t].id != id
    {
      assert Joined(init, bs[t].id);
      var i :| 0 <= i < |init| && init[i].Join? && init[i].id == bs[t].id;
    }
  }

  /** A joining plan whose id no stored branch has appends its branch. */
  lemma JoinAppends(dr: Drawer, st: Progress, s: Step)
    requires s.Join?
    requires forall t :: 0 <= t < |st.branches| ==> st.branches[t].id != s.id
    ensures Apply(dr, st, s).branches == st.branches + [BranchOf(dr, s.id, s.head, s.gen, st.last)]
    ensures Apply(dr, st, s).last == st.last + |s.gen|
  {
    PutFresh(st.branches, BranchOf(dr, s.id, s.head, s.gen, st.last));
  }

  /** After a join, every stored branch is still the branch of some plan. */
  lemma JoinIds(init: seq<Step>, bs: seq<Branch>, s: Step, b: Branch)
    requires s.Join? && b.id == s.id
    requires forall t :: 0 <= t < |bs| ==> Joined(init, bs[t].id)
    ensures forall t :: 0 <= t < |bs + [b]| ==> Joined(init + [s], (bs + [b])[t].id)
  {
    BranchesStayJoined(init, s, bs);
    forall t | 0 <= t < |bs + [b]|
      ensures Joined(init + [s], (bs + [b])[t].id)
    {
      if t == |bs| {
        assert (init + [s])[|init|] == s;
      } else {
        assert (bs + [b])[t] == bs[t];
      }
    }
  }

  /** The counter stays one ahead of the line count across a join. */
  lemma JoinCount(dr: Drawer, bs: seq<Branch>, s: Step, last: int)
    requires s.Join? && last == 1 + TotalLines(bs)
    ensures last + |s.gen| == 1 + TotalLines(bs + [BranchOf(dr, s.id, s.head, s.gen, last)])
  {
    SegmentsAppend(dr, bs, BranchOf(dr, s.id, s.head, s.gen, last), 2);
  }

  /** A joining plan whose id no earlier plan has keeps `LinePassReady`. */
  lemma JoinReady(dr: Drawer, init: seq<Step>, st: Progress, s: Step)
    requires s.Join? && init != []
    requires forall i :: 0 <= i < |init| && init[i].Join? ==> init[i].id != s.id
    requires LinePassReady(dr, init, st)
    ensures LinePassReady(dr, init + [s], Apply(dr, st, s))
  {
    FreshId(init, st.branches, s.id);
    JoinAppends(dr, st, s);
    JoinedBranchReady(dr, init, st, s, Apply(dr, st, s));
  }

  /** The state after appending a joining plan's branch keeps `LinePassReady`. */
  lemma JoinedBranchReady(dr: Drawer, init: seq<Step>, st: Progress, s: Step, r: Progress)
    requires s.Join? && init != []
    requires LinePassReady(dr, init, st)
    requires r.branches == st.branches + [BranchOf(dr, s.id, s.head, s.gen, st.last)]
    requires r.last == st.last + |s.gen|
    ensures LinePassReady(dr, init + [s], r)
  {
    var b := BranchOf(dr, s.id, s.head, s.gen, st.last);
    JoinIds(init, st.branches, s, b);
    JoinCount(dr, st.branches, s, st.last);
    SelfNumberedAppend(dr, st.branches, b, st.last);
  }

  /** One plan of the loop keeps `LinePassReady`. */
  lemma ApplyReady(dr: Drawer, init: seq<Step>, st: Progress, s: Step)
    requires DistinctJoins(init + [s]) && StartsFirst(init + [s]) && (init + [s])[0].Start?
    requires init == [] ==> st == Progress([], 0, [])
    requires LinePassReady(dr, init, st)
    ensures LinePassReady(dr, init + [s], Apply(dr, st, s))
  {
    var steps := init + [s];
    if s.Start? {
      assert |init| == 0 by {
        assert steps[|init|] == s;
      }
    } else if s.Skip? {
      assert init == [] ==> steps == [s];
      BranchesStayJoined(init, s, st.branches);
    } else {
      assert init == [] ==> steps == [s];
      forall i | 0 <= i < |init| && init[i].Join?
        ensures init[i].id != s.id
      {
        assert steps[i] == init[i] && steps[|init|] == s;
      }
      JoinReady(dr, init, st, s);
    }
  }

  /** With distinct branch ids among the plans, the whole first pass keeps
      `LinePassReady`. */
  lemma {:induction false} RunReady(dr: Drawer, steps: seq<Step>)
    requires DistinctJoins(steps) && StartsFirst(steps)
    requires |steps| > 0 ==> steps[0].Start?
    ensures LinePassReady(dr, steps, Run(dr, steps))
    decreases |steps|
  {
    if steps != [] {
      var init := steps[..|steps| - 1];
      var s := steps[|steps| - 1];
      assert steps == init + [s];
      assert |init| > 0 ==> init[0] == steps[0];
      RunReady(dr, init);
      ApplyReady(dr, init, Run(dr, init), s);
    }
  }

  lemma RenameSame(points: seq<Entry>, pole: string)
    ensures Rename(points, pole, pole) == points
  {
  }

  lemma {:induction false} RelabelIdentity(points: seq<Entry>, segs: seq<Segment>)
    requires forall j :: 0 <= j < |segs| ==> segs[j].endLabel == segs[j].line.poleNumber
    ensures Relabel(points, segs) == points
    decreases |segs|
  {
    if segs != [] {
      RenameSame(points, segs[0].endLabel);
      RelabelIdentity(points, segs[1..]);
    }
  }

  /** With distinct branch ids the rename pass changes no label: the final
      points are those of the first pass, numbered 01, 02, ... in order. */
  lemma DistinctIdsKeepLabels(dr: Drawer, layer: seq<Anchor>, h: Host)
    requires IsSqrt(h.sqrt) && DistinctBranchIds(layer)
    requires Draw(dr, layer, h).Success?
    ensures Draw(dr, layer, h).value.points == Run(dr, Plans(dr, layer, h, |layer|).value).points
    ensures forall i :: 0 <= i < |Draw(dr, layer, h).value.points| ==>
      Draw(dr, layer, h).value.points[i].poleNumber == PoleLabel(dr, i + 1)
  {
    var steps := Plans(dr, layer, h, |layer|).value;
    PlansDistinct(dr, layer, h);
    var st := Run(dr, steps);
    RunReady(dr, steps);
    DrawNumbering(dr, layer, h);
    RelabelIdentity(st.points, Segments(dr, st.branches, 2));
  }

  /** Distinct branch ids among the features give distinct ids among the
      joining plans. */
  lemma PlansDistinct(dr: Drawer, layer: seq<Anchor>, h: Host)
    requires IsSqrt(h.sqrt) && DistinctBranchIds(layer)
    requires Plans(dr, layer, h, |layer|).Success?
    ensures var steps := Plans(dr, layer, h, |layer|).value;
      DistinctJoins(steps) && StartsFirst(steps) && (|steps| > 0 ==> steps[0].Start?)
  {
    var steps := Plans(dr, layer, h, |layer|).value;
    PlansShape(dr, layer, h);
    forall i, j | 0 <= i < j < |steps| && steps[i].Join? && steps[j].Join?
      ensures steps[i].id != steps[j].id
    {
    }
  }
}

=== FILE: gap_filler.dfy ===
/** create_points_btw_two_poins.py: between each pole and the pole whose
    feature id is one more, fill the gap in the pole numbering with evenly
    spaced new poles on the straight run between them. The pole number is
    the integer after the label's first character, and the new poles are
    labelled M followed by three digits. */
module GapFiller {
  import opened Wrappers
  import opened Text
  import opened Projection

  /** A feature of the pole layer: its feature id, `pole_number` and
      geographic position. */
  datatype Pole = Pole(fid: int, poleNumber: string, at: XY)

  /** A generated pole: `pole_number`, geometry, `minigrid_id` and
      `back_span`. */
  datatype NewPole = NewPole(poleNumber: string, at: Vertex, minigridId: string, backSpan: real)

  /** The exceptions that end the script: no feature has the next fid
      (ValueError), the two poles share a projected x (ZeroDivisionError in
      the slope), a label that does not read as an integer (ValueError), and equal
      pole numbers (ZeroDivisionError in the spacing). */
  datatype FillError =
    | MissingNeighbour(fid: int)
    | VerticalSpan(fid: int)
    | BadLabel(text: string)
    | SameNumber(fid: int)

  const Minigrid := "Ntatumbila"

  /** `f"M{n:03d}"`. */
  function GapLabel(n: int): string {
    Label("M", n, 3)
  }

  /** Python's `text[1:]`: everything after the first character. */
  function Tail(text: string): (r: string)
    ensures |text| > 0 ==> [text[0]] + r == text
    ensures |text| == 0 ==> r == []
  {
    if |text| == 0 then [] else text[1..]
  }

  /** `int(pole_number[1:])`. */
  function PoleNumber(text: string): (r: Option<int>)
    ensures |text| <= 1 ==> r.None?
    ensures |text| > 1 && AllDigits(text[1..]) ==> r == Some(DigitsValue(text[1..]))
  {
    ParseIntShape(Tail(text));
    ParseInt(Tail(text))
  }

  /** `point_layer.getFeature(fid)`: the first feature with that id. */
  function FindFid(layer: seq<Pole>, fid: int): (r: Option<nat>)
    ensures r.None? <==> forall i :: 0 <= i < |layer| ==> layer[i].fid != fid
    ensures r.Some? ==> r.value < |layer| && layer[r.value].fid == fid
    ensures r.Some? ==> forall i :: 0 <= i < r.value ==> layer[i].fid != fid
  {
    if |layer| == 0 then None
    else if layer[0].fid == fid then Some(0)
    else match FindFid(layer[1..], fid)
      case None => None
      case Some(i) => Some(i + 1)
  }

  /** `p1` and `p2` in the UTM zone of `p1`'s longitude. */
  function Grid1(p1: Pole, h: Host): XY {
    h.toGrid(UtmZone(p1.at.x), p1.at)
  }

  function Grid2(p1: Pole, p2: Pole, h: Host): XY {
    h.toGrid(UtmZone(p1.at.x), p2.at)
  }

  /** The number of poles missing between numbers `n1` and `n2`:
      `range(n2 - n1 - 1)` is empty when the difference is below 2. */
  function GapCount(n1: int, n2: int): (c: nat)
    ensures n2 - n1 >= 1 ==> c == n2 - n1 - 1
    ensures n2 - n1 < 1 ==> c == 0
  {
    if n2 - n1 - 1 > 0 then n2 - n1 - 1 else 0
  }

  /** What the script works out for one pair before generating anything:
      both pole numbers, both projected positions, and the spacing `d`. */
  datatype Gap = Gap(n1: int, n2: int, g1: XY, g2: XY, d: real)

  /** `total / (n2 - n1)`: the distance shared over the gap. */
  function Share(total: real, n1: int, n2: int): real
    requires n1 != n2
  {
    total / (n2 - n1) as real
  }

  /** The checks the script makes for a pair, in its order: the slope,
      then both labels, then the spacing `total / (n2 - n1)`. */
  function Measure(p1: Pole, p2: Pole, h: Host): (r: Result<Gap, FillError>)
    ensures Grid1(p1, h).x == Grid2(p1, p2, h).x ==> r == Failure(VerticalSpan(p1.fid))
    ensures Grid1(p1, h).x != Grid2(p1, p2, h).x && PoleNumber(p1.poleNumber).None? ==>
      r == Failure(BadLabel(p1.poleNumber))
    ensures (Grid1(p1, h).x != Grid2(p1, p2, h).x && PoleNumber(p1.poleNumber).Some?
             && PoleNumber(p2.poleNumber).None?) ==>
      r == Failure(BadLabel(p2.poleNumber))
    ensures (Grid1(p1, h).x != Grid2(p1, p2, h).x && PoleNumber(p1.poleNumber).Some?
             && PoleNumber(p1.poleNumber) == PoleNumber(p2.poleNumber)) ==>
      r == Failure(SameNumber(p1.fid))
    ensures r.Success? <==>
      && Grid1(p1, h).x != Grid2(p1, p2, h).x
      && PoleNumber(p1.poleNumber).Some? && PoleNumber(p2.poleNumber).Some?
      && PoleNumber(p1.poleNumber).value != PoleNumber(p2.poleNumber).value
    ensures r.Success? ==>
      && Some(r.value.n1) == PoleNumber(p1.poleNumber)
      && Some(r.value.n2) == PoleNumber(p2.poleNumber)
      && r.value.g1 == Grid1(p1, h) && r.value.g2 == Grid2(p1, p2, h)
      && r.value.d == Share(h.measure(p1.at, p2.at), r.value.n1, r.value.n2)
  {
    var g1 := Grid1(p1, h);
    var g2 := Grid2(p1, p2, h);
    if g1.x == g2.x then Failure(VerticalSpan(p1.fid))
    else
      var total := h.measure(p1.at, p2.at);
      var n1 :- Parsed(p1.poleNumber);
      var n2 :- Parsed(p2.poleNumber);
      if n2 - n1 == 0 then Failure(SameNumber(p1.fid))
      else
        Success(Gap(n1, n2, g1, g2, Share(total, n1, n2)))
  }

  /** The poles of a gap: `range(n2 - n1 - 1)`, pole i numbered n1 + 1 + i
      at station i + 1 of the run from `g1` towards `g2`. */
  function Spread(g: Gap, sqrt: real -> real): (r: seq<NewPole>)
    requires IsSqrt(sqrt) && g.g1.x != g.g2.x
    ensures |r| == GapCount(g.n1, g.n2)
    ensures forall i :: 0 <= i < |r| ==>
      && r[i].poleNumber == GapLabel(g.n1 + 1 + i)
      && r[i].minigridId == Minigrid
      && r[i].backSpan == g.d
      && r[i].at == Grid(Along(g.g1, g.g2, g.d, i + 1, sqrt))
  {
    var n := GapCount(g.n1, g.n2);
    seq(n, i requires 0 <= i < n => NewPole(GapLabel(g.n1 + 1 + i), Grid(Along(g.g1, g.g2, g.d, i + 1, sqrt)), Minigrid, g.d))
  }

  /** The poles generated between `p1` and `p2`. */
  function Between(p1: Pole, p2: Pole, h: Host): (r: Result<seq<NewPole>, FillError>)
    requires IsSqrt(h.sqrt)
    ensures r.Success? <==> Measure(p1, p2, h).Success?
    ensures r.Failure? ==> r.error == Measure(p1, p2, h).error
    ensures r.Success? ==> r.value == Spread(Measure(p1, p2, h).value, h.sqrt)
  {
    var g :- Measure(p1, p2, h);
    Success(Spread(g, h.sqrt))
  }

  /** `int(text[1:])`, raising on a label that is not a number. */
  function Parsed(text: string): (r: Result<int, FillError>)
    ensures r.Success? <==> PoleNumber(text).Some?
    ensures r.Success? ==> r.value == PoleNumber(text).value
    ensures r.Failure? ==> r.error == BadLabel(text)
  {
    match PoleNumber(text)
    case None => Failure(BadLabel(text))
    case Some(n) => Success(n)
  }

  /** The pair started by the feature at `index`: it and the feature with
      the next fid. */
  function Pair(layer: seq<Pole>, h: Host, index: nat): (r: Result<seq<NewPole>, FillError>)
    requires IsSqrt(h.sqrt) && index < |layer|
  {
    match FindFid(layer, layer[index].fid + 1)
    case None => Failure(MissingNeighbour(layer[index].fid))
    case Some(j) => Between(layer[index], layer[j], h)
  }

  /** What every feature's pair gives, in layer order. */
  function Outcomes(layer: seq<Pole>, h: Host): (r: seq<Result<seq<NewPole>, FillError>>)
    requires IsSqrt(h.sqrt)
    ensures |r| == |layer|
    ensures forall i :: 0 <= i < |layer| ==> r[i] == Pair(layer, h, i)
  {
    seq(|layer|, i requires 0 <= i < |layer| => Pair(layer, h, i))
  }

  /** The poles of every successful outcome among the first `k`, one
      outcome after another. */
  function Concat(rs: seq<Result<seq<NewPole>, FillError>>, k: nat): seq<NewPole>
    requires k <= |rs|
  {
    if k == 0 then [] else Concat(rs, k - 1) + (if rs[k - 1].Success? then rs[k - 1].value else [])
  }

  /** The first `k` outcomes one after another, stopping at the first
      exception, whose error ends the script. */
  function Chain(rs: seq<Result<seq<NewPole>, FillError>>, k: nat): (r: Result<seq<NewPole>, FillError>)
    requires k <= |rs|
    ensures r.Failure? <==> exists i :: 0 <= i < k && rs[i].Failure?
    ensures r.Failure? ==> exists i :: (0 <= i < k && rs[i] == Failure(r.error)
      && forall j :: 0 <= j < i ==> rs[j].Success?)
    ensures r.Success? ==> r.value == Concat(rs, k)
    ensures r.Success? ==> forall t :: 0 <= t < |r.value| ==>
      exists i :: 0 <= i < k && rs[i].Success? && r.value[t] in rs[i].value
    decreases k
  {
    if k == 0 then Success([])
    else
      var init :- Chain(rs, k - 1);
      var more :- rs[k - 1];
      var r := init + more;
      assert forall t :: |init| <= t < |r| ==> r[t] == more[t - |init|];
      Success(r)
  }

  /** The whole script: the loop stops before the last feature, which
      never starts a pair. */
  function Fill(layer: seq<Pole>, h: Host): (r: Result<seq<NewPole>, FillError>)
    requires IsSqrt(h.sqrt)
    ensures r.Failure? <==> exists i :: 0 <= i < |layer| - 1 && Pair(layer, h, i).Failure?
    ensures r.Failure? ==> exists i :: (0 <= i < |layer| - 1 && Pair(layer, h, i) == Failure(r.error)
      && forall j :: 0 <= j < i ==> Pair(layer, h, j).Success?)
    ensures r.Success? && |layer| >= 1 ==> r.value == Concat(Outcomes(layer, h), |layer| - 1)
    ensures r.Success? ==> forall t :: 0 <= t < |r.value| ==>
      && PoleNumber(r.value[t].poleNumber).Some?
      && r.value[t].minigridId == Minigrid
    ensures |layer| <= 1 ==> r == Success([])
  {
    if |layer| == 0 then Success([])
    else
      var rs := Outcomes(layer, h);
      var r := Chain(rs, |layer| - 1);
      FilledLabels(layer, h, rs, r);
      r
  }

  lemma FilledLabels(layer: seq<Pole>, h: Host, rs: seq<Result<seq<NewPole>, FillError>>, r: Result<seq<NewPole>, FillError>)
    requires IsSqrt(h.sqrt) && rs == Outcomes(layer, h)
    requires r.Success? ==> forall t :: 0 <= t < |r.value| ==>
      exists i :: 0 <= i < |layer| && rs[i].Success? && r.value[t] in rs[i].value
    ensures r.Success? ==> forall t :: 0 <= t < |r.value| ==>
      && PoleNumber(r.value[t].poleNumber).Some?
      && r.value[t].minigridId == Minigrid
  {
    if r.Success? {
      forall t | 0 <= t < |r.value|
        ensures PoleNumber(r.value[t].poleNumber).Some? && r.value[t].minigridId == Minigrid
      {
        var i :| 0 <= i < |layer| && rs[i].Success? && r.value[t] in rs[i].value;
        PairLabels(layer, h, i);
        var u :| 0 <= u < |rs[i].value| && rs[i].value[u] == r.value[t];
      }
    }
  }

  // ----- Properties -----

  /** A successful pair is the spread of the gap between the feature and
      the feature with the next fid. */
  lemma PairSpread(layer: seq<Pole>, h: Host, index: nat)
    requires IsSqrt(h.sqrt) && index < |layer|
    requires Pair(layer, h, index).Success?
    ensures FindFid(layer, layer[index].fid + 1).Some?
    ensures var p2 := layer[FindFid(layer, layer[index].fid + 1).value];
      && Measure(layer[index], p2, h).Success?
      && Pair(layer, h, index).value == Spread(Measure(layer[index], p2, h).value, h.sqrt)
  {
  }

  /** The output of a run that succeeds is the spread of every pair, pair
      after pair: it grows by one pair's poles at a time. */
  lemma {:induction false} ConcatStep(layer: seq<Pole>, h: Host, k: nat)
    requires IsSqrt(h.sqrt) && k < |layer|
    requires forall i :: 0 <= i <= k ==> Pair(layer, h, i).Success?
    ensures Concat(Outcomes(layer, h), k + 1) == Concat(Outcomes(layer, h), k) + Pair(layer, h, k).value
    ensures |Concat(Outcomes(layer, h), k + 1)| ==
      |Concat(Outcomes(layer, h), k)| + GapCount(PoleNumber(layer[k].poleNumber).value,
        PoleNumber(layer[FindFid(layer, layer[k].fid + 1).value].poleNumber).value)
  {
    PairSpread(layer, h, k);
  }

  /** A label M<n:03d> reads back as n. */
  lemma GapLabelRoundTrip(n: int)
    ensures PoleNumber(GapLabel(n)) == Some(n)
  {
    assert Tail(GapLabel(n)) == PadInt(n, 3);
    ParsePadRoundTrip(n, 3);
  }

  /** Any one-character prefix is dropped before reading the number, so
      P005 and M005 both read as 5. */
  lemma PoleNumberIgnoresPrefix(c: char, n: int, width: nat)
    ensures PoleNumber([c] + PadInt(n, width)) == Some(n)
  {
    assert Tail([c] + PadInt(n, width)) == PadInt(n, width);
    ParsePadRoundTrip(n, width);
  }

  /** Every pole a pair generates carries a label that reads back. */
  lemma PairLabels(layer: seq<Pole>, h: Host, index: nat)
    requires IsSqrt(h.sqrt) && index < |layer|
    requires Pair(layer, h, index).Success?
    ensures forall j :: 0 <= j < |Pair(layer, h, index).value| ==>
      && PoleNumber(Pair(layer, h, index).value[j].poleNumber).Some?
      && Pair(layer, h, index).value[j].minigridId == Minigrid
  {
    var j := FindFid(layer, layer[index].fid + 1).value;
    var g := Measure(layer[index], layer[j], h).value;
    var ps := Spread(g, h.sqrt);
    assert Pair(layer, h, index).value == ps;
    forall i | 0 <= i < |ps|
      ensures PoleNumber(ps[i].poleNumber).Some?
    {
      GapLabelRoundTrip(g.n1 + 1 + i);
    }
  }

  /** The generated labels run from M<n1+1> up to M<n2-1>: the i-th reads
      back as n1 + 1 + i and the last as n2 - 1. */
  lemma SpreadNumbers(g: Gap, sqrt: real -> real, i: nat)
    requires IsSqrt(sqrt) && g.g1.x != g.g2.x
    requires i < |Spread(g, sqrt)|
    ensures g.n1 < g.n1 + 1 + i < g.n2
    ensures PoleNumber(Spread(g, sqrt)[i].poleNumber) == Some(g.n1 + 1 + i)
    ensures i == |Spread(g, sqrt)| - 1 ==> g.n1 + 1 + i == g.n2 - 1
  {
    GapLabelRoundTrip(g.n1 + 1 + i);
  }

  /** Consecutive numbers, or a second number below the first, leave no gap. */
  lemma NoGapWithoutRoom(g: Gap, sqrt: real -> real)
    requires IsSqrt(sqrt) && g.g1.x != g.g2.x
    requires g.n2 <= g.n1 + 1
    ensures Spread(g, sqrt) == []
  {
  }

  /** The k-th generated pole (k counted from 1) stands on the straight
      run from `g1` towards `g2`, `k * d` from `g1`. */
  lemma SpreadGeometry(g: Gap, sqrt: real -> real, k: nat)
    requires IsSqrt(sqrt) && g.g1.x != g.g2.x && g.d >= 0.0
    requires 1 <= k <= |Spread(g, sqrt)|
    ensures Spread(g, sqrt)[k - 1].at == Grid(Along(g.g1, g.g2, g.d, k, sqrt))
    ensures OnRay(g.g1, g.g2, Along(g.g1, g.g2, g.d, k, sqrt), k as real * g.d)
  {
    StationGeometry(g.g1, g.g2, g.d, k, sqrt);
  }

  /** The spacing `total / (n + 1)` shares the whole distance over the
      gap: `(n + 1) * d` is the distance, and a non-negative distance gives
      a non-negative spacing whenever there is a pole to place. */
  lemma SpacingShare(total: real, n1: int, n2: int)
    requires n1 != n2
    ensures Share(total, n1, n2) * (n2 - n1) as real == total
    ensures total >= 0.0 && n2 > n1 ==> Share(total, n1, n2) >= 0.0
  {
    var k := (n2 - n1) as real;
    assert Share(total, n1, n2) * k == total;
  }


  /** A pole that is not the last and has no feature with the next fid
      ends the script with an error. */
  lemma MissingNeighbourFails(layer: seq<Pole>, h: Host, i: nat)
    requires IsSqrt(h.sqrt) && i < |layer| - 1
    requires forall j :: 0 <= j < |layer| ==> layer[j].fid != layer[i].fid + 1
    ensures Fill(layer, h).Failure?
  {
    assert Pair(layer, h, i).Failure?;
  }

}

=== FILE: nearest_linker.dfy ===
/** lines_between_points.py: every point is joined to its nearest point
    among those with a strictly greater feature id, provided that point is
    no more than 300 units away. Distances are the host's (both points are
    carried into EPSG:32629 and measured there), so they are a parameter. */
module NearestLinker {
  import opened Wrappers
  import opened Projection

  /** A feature of the point layer: its feature id and position. */
  datatype Point = Point(id: int, at: XY)

  /** A line of the output layer: its two end points and its `distance`
      attribute, with the ids of the pair it joins (`pair_ids`). */
  datatype Link = Link(fromId: int, toId: int, from: XY, to: XY, distance: real)

  /** Lines longer than this are not drawn. */
  const Cutoff: real := 300.0

  /** `f2_id <= f1_id` is skipped: only later ids are candidates. */
  predicate Candidate(f1: Point, f2: Point) {
    f2.id > f1.id
  }

  /** The inner loop over the first `n` features: the index of the nearest
      candidate so far. The comparison is strict, so a later candidate at
      the same distance does not replace an earlier one. */
  function Scan(fs: seq<Point>, f1: Point, dist: (XY, XY) -> real, n: nat): (r: Option<nat>)
    requires n <= |fs|
    ensures r.None? <==> forall j :: 0 <= j < n ==> !Candidate(f1, fs[j])
    ensures r.Some? ==> r.value < n && Candidate(f1, fs[r.value])
    ensures r.Some? ==> forall j :: 0 <= j < n && Candidate(f1, fs[j]) ==>
      dist(f1.at, fs[r.value].at) <= dist(f1.at, fs[j].at)
    ensures r.Some? ==> forall j :: 0 <= j < r.value && Candidate(f1, fs[j]) ==>
      dist(f1.at, fs[r.value].at) < dist(f1.at, fs[j].at)
    decreases n
  {
    if n == 0 then None
    else
      var best := Scan(fs, f1, dist, n - 1);
      if !Candidate(f1, fs[n - 1]) then best
      else if best.None? || dist(f1.at, fs[n - 1].at) < dist(f1.at, fs[best.value].at) then Some(n - 1)
      else best
  }

  /** The nearest later feature, scanning the whole layer. */
  function Nearest(fs: seq<Point>, f1: Point, dist: (XY, XY) -> real): Option<nat> {
    Scan(fs, f1, dist, |fs|)
  }

  /** What one feature contributes: a line to its nearest later feature,
      unless there is none or it is farther than the cutoff. */
  function LinkFrom(fs: seq<Point>, f1: Point, dist: (XY, XY) -> real): (r: Option<Link>)
    ensures r.None? <==>
      Nearest(fs, f1, dist).None? || dist(f1.at, fs[Nearest(fs, f1, dist).value].at) > Cutoff
    ensures r.Some? ==>
      && Nearest(fs, f1, dist).Some?
      && r.value.toId == fs[Nearest(fs, f1, dist).value].id
      && r.value.to == fs[Nearest(fs, f1, dist).value].at
      && r.value.fromId == f1.id && r.value.from == f1.at
      && r.value.fromId < r.value.toId
      && r.value.distance == dist(f1.at, r.value.to)
      && r.value.distance <= Cutoff
  {
    match Nearest(fs, f1, dist)
    case None => None
    case Some(j) =>
      var d := dist(f1.at, fs[j].at);
      if d > Cutoff then None else Some(Link(f1.id, fs[j].id, f1.at, fs[j].at, d))
  }

  /** What every feature contributes, in layer order. */
  function Offers(fs: seq<Point>, dist: (XY, XY) -> real): (r: seq<Option<Link>>)
    ensures |r| == |fs|
    ensures forall i :: 0 <= i < |fs| ==> r[i] == LinkFrom(fs, fs[i], dist)
  {
    seq(|fs|, i requires 0 <= i < |fs| => LinkFrom(fs, fs[i], dist))
  }

  /** The positions, among the first `k` offers, of those that draw a
      line, in order. */
  function Sources(os: seq<Option<Link>>, k: nat): (r: seq<nat>)
    requires k <= |os|
    ensures forall t :: 0 <= t < |r| ==> r[t] < k && os[r[t]].Some?
    ensures forall t1, t2 :: 0 <= t1 < t2 < |r| ==> r[t1] < r[t2]
    ensures forall i :: 0 <= i < k && os[i].Some? ==> i in r
    decreases k
  {
    if k == 0 then []
    else Sources(os, k - 1) + (if os[k - 1].Some? then [k - 1] else [])
  }

  /** The whole script: one line per drawing feature, in layer order. */
  function Draw(fs: seq<Point>, dist: (XY, XY) -> real): (r: seq<Link>)
    ensures |r| <= |fs|
    ensures forall t :: 0 <= t < |r| ==>
      && r[t].fromId < r[t].toId
      && r[t].distance <= Cutoff
      && r[t].distance == dist(r[t].from, r[t].to)
  {
    var os := Offers(fs, dist);
    var src := Sources(os, |os|);
    SourcesCount(src, |os|);
    seq(|src|, t requires 0 <= t < |src| => os[src[t]].value)
  }

  // ----- Properties -----

  /** An independent statement of the choice: `j` is a candidate, no
      candidate is nearer, and every earlier candidate is strictly farther. */
  ghost predicate FirstNearest(fs: seq<Point>, f1: Point, dist: (XY, XY) -> real, j: nat) {
    && j < |fs| && Candidate(f1, fs[j])
    && (forall k :: 0 <= k < |fs| && Candidate(f1, fs[k]) ==> dist(f1.at, fs[j].at) <= dist(f1.at, fs[k].at))
    && (forall k :: 0 <= k < j && Candidate(f1, fs[k]) ==> dist(f1.at, fs[j].at) < dist(f1.at, fs[k].at))
  }

  /** The scan picks exactly the first nearest later feature. */
  lemma NearestIsFirstNearest(fs: seq<Point>, f1: Point, dist: (XY, XY) -> real, j: nat)
    ensures Nearest(fs, f1, dist) == Some(j) <==> FirstNearest(fs, f1, dist, j)
  {
    var r := Nearest(fs, f1, dist);
    if FirstNearest(fs, f1, dist, j) {
      assert r.Some?;
      var b := r.value;
      var db := dist(f1.at, fs[b].at);
      var dj := dist(f1.at, fs[j].at);
      assert b < j ==> dj < db;
      assert j < b ==> db < dj;
    }
  }

  /** The feature with the greatest id has no candidate and draws nothing. */
  lemma LargestDrawsNothing(fs: seq<Point>, f1: Point, dist: (XY, XY) -> real)
    requires forall j :: 0 <= j < |fs| ==> fs[j].id <= f1.id
    ensures LinkFrom(fs, f1, dist).None?
  {
  }

  /** A nearest feature exactly at the cutoff is still joined. */
  lemma CutoffIncluded(fs: seq<Point>, f1: Point, dist: (XY, XY) -> real)
    requires Nearest(fs, f1, dist).Some?
    requires dist(f1.at, fs[Nearest(fs, f1, dist).value].at) == Cutoff
    ensures LinkFrom(fs, f1, dist).Some?
    ensures LinkFrom(fs, f1, dist).value.distance == 300.0
  {
  }

  /** With distinct feature ids no two lines start at the same feature, so
      no unordered pair of features is joined twice. */
  lemma NoPairTwice(fs: seq<Point>, dist: (XY, XY) -> real, t1: nat, t2: nat)
    requires forall i, j :: 0 <= i < j < |fs| ==> fs[i].id != fs[j].id
    requires t1 < t2 < |Draw(fs, dist)|
    ensures Draw(fs, dist)[t1].fromId != Draw(fs, dist)[t2].fromId
    ensures {Draw(fs, dist)[t1].fromId, Draw(fs, dist)[t1].toId} != {Draw(fs, dist)[t2].fromId, Draw(fs, dist)[t2].toId}
  {
    var src := Sources(Offers(fs, dist), |fs|);
    DrawSource(fs, dist, t1);
    DrawSource(fs, dist, t2);
    assert src[t1] < src[t2];
    PairsDiffer(Draw(fs, dist)[t1], Draw(fs, dist)[t2]);
  }

  /** Line t of the output is the line of the t-th drawing feature. */
  lemma DrawSource(fs: seq<Point>, dist: (XY, XY) -> real, t: nat)
    requires t < |Draw(fs, dist)|
    ensures var src := Sources(Offers(fs, dist), |fs|);
      && t < |src| && src[t] < |fs|
      && LinkFrom(fs, fs[src[t]], dist).Some?
      && Draw(fs, dist)[t] == LinkFrom(fs, fs[src[t]], dist).value
      && Draw(fs, dist)[t].fromId == fs[src[t]].id
  {
  }

  lemma PairsDiffer(a: Link, b: Link)
    requires a.fromId != b.fromId && a.fromId < a.toId && b.fromId < b.toId
    ensures {a.fromId, a.toId} != {b.fromId, b.toId}
  {
    assert a.fromId in {a.fromId, a.toId} && a.fromId !in {b.fromId};
    assert b.fromId in {b.fromId, b.toId} && b.fromId !in {a.fromId};
  }

  /** Every feature that has a later neighbour within the cutoff draws
      exactly one line, and it goes to its first nearest later feature. */
  lemma DrawnExactly(fs: seq<Point>, dist: (XY, XY) -> real, i: nat)
    requires i < |fs| && LinkFrom(fs, fs[i], dist).Some?
    ensures exists t :: 0 <= t < |Draw(fs, dist)| && Draw(fs, dist)[t] == LinkFrom(fs, fs[i], dist).value
  {
    var os := Offers(fs, dist);
    var src := Sources(os, |os|);
    assert os[i].Some?;
    var t :| 0 <= t < |src| && src[t] == i;
    assert Draw(fs, dist)[t] == LinkFrom(fs, fs[i], dist).value;
  }

  lemma SourcesCount(src: seq<nat>, k: nat)
    requires forall t :: 0 <= t < |src| ==> src[t] < k
    requires forall t1, t2 :: 0 <= t1 < t2 < |src| ==> src[t1] < src[t2]
    ensures |src| <= k
  {
    if |src| > 0 {
      var last := |src| - 1;
      StrictlyRising(src, last);
    }
  }

  lemma {:induction false} StrictlyRising(src: seq<nat>, t: nat)
    requires t < |src|
    requires forall t1, t2 :: 0 <= t1 < t2 < |src| ==> src[t1] < src[t2]
    ensures src[t] >= t
    decreases t
  {
    if t > 0 {
      StrictlyRising(src, t - 1);
    }
  }
}

=== FILE: polyline_drawer.dfy ===
/** line_drawer_v1.py: the single-pass LV drawer. The first feature becomes
    pole LV01; every later feature whose `connecting_cp` names a control pole
    gets `number_of_poles + 1` new poles, the stations 0..number_of_poles of
    the span from that control pole towards the feature, numbered on from a
    global counter, and one polyline through them. */
module PolylineDrawer {
  import opened Wrappers
  import opened Text
  import opened Spacing
  import opened Projection
  import opened BranchDrawer

  /** `pointFeatures`, the last entry of `poleNumbers`, and the polylines
      added to the line layer, in order. */
  datatype Output = Output(points: seq<Entry>, last: int, polylines: seq<seq<Vertex>>)

  /** `f'LV{n:02d}'`. */
  function LvLabel(n: int): string {
    Label("LV", n, 2)
  }

  /** The points are LV01, LV02, ... in creation order and the counter is
      the number of points. */
  ghost predicate Numbered(o: Output) {
    && |o.points| == o.last
    && forall i :: 0 <= i < |o.points| ==> o.points[i].poleNumber == LvLabel(i + 1)
  }

  /** All polyline vertices, polyline after polyline. */
  function Flatten(ps: seq<seq<Vertex>>): seq<Vertex> {
    if ps == [] then [] else Flatten(ps[..|ps| - 1]) + ps[|ps| - 1]
  }

  /** `calculate_points_distance(totalDistance, 35, 56)`. */
  function LvSpan(a: Anchor, cp: Anchor, h: Host): (s: Span)
    ensures s.count >= 1
    ensures h.measure(a.at, cp.at) < 56.0 ==> s == Span(1, h.measure(a.at, cp.at))
  {
    var total := h.measure(a.at, cp.at);
    ResolveSpanBounds(total, LvTier.minDistance, LvTier.maxDistance);
    ResolveTier(total, LvTier)
  }

  /** The stations 0..number_of_poles of the span from `cp` towards `a`;
      the slope divides by `x2 - x1`, so a vertical span raises. */
  function Stations(a: Anchor, cp: Anchor, h: Host): (r: Result<seq<Vertex>, DrawError>)
    requires IsSqrt(h.sqrt)
    ensures r.Failure? <==> Backward(a, cp, h).x == Forward(a, h).x
    ensures r.Success? ==> |r.value| == LvSpan(a, cp, h).count + 1
    ensures r.Success? ==> r.value[0] == Grid(Backward(a, cp, h))
  {
    var g1 := Backward(a, cp, h);
    var g2 := Forward(a, h);
    if g1.x == g2.x then Failure(VerticalSpan(a.controlPole))
    else
      var s := LvSpan(a, cp, h);
      StationZero(g1, g2, s.spacing, h.sqrt);
      Success(seq(s.count + 1, i requires 0 <= i <= s.count => Grid(Along(g1, g2, s.spacing, i, h.sqrt))))
  }

  /** What the feature at `index > 0` contributes: nothing when its
      `connecting_cp` names no control pole, else the stations of its span. */
  function Contribution(layer: seq<Anchor>, h: Host, index: nat): (r: Result<Option<seq<Vertex>>, DrawError>)
    requires IsSqrt(h.sqrt) && 0 < index < |layer|
    ensures Partner(layer, index).None? ==> r == Success(None)
    ensures r.Failure? <==>
      Partner(layer, index).Some? && Backward(layer[index], Partner(layer, index).value, h).x == Forward(layer[index], h).x
    ensures r.Success? && r.value.Some? ==>
      && Partner(layer, index).Some?
      && r.value.value == Stations(layer[index], Partner(layer, index).value, h).value
      && |r.value.value| == LvSpan(layer[index], Partner(layer, index).value, h).count + 1
  {
    match Partner(layer, index)
    case None => Success(None)
    case Some(cp) =>
      var gen :- Stations(layer[index], cp, h);
      Success(Some(gen))
  }

  /** One processed feature: its points are numbered on from the counter,
      which moves past them, and they form one more polyline. */
  function AddRun(o: Output, gen: seq<Vertex>): (r: Output)
    ensures Numbered(o) ==> Numbered(r)
    ensures r.last == o.last + |gen|
    ensures r.polylines == o.polylines + [gen]
    ensures o.points <= r.points && Vertices(r.points[|o.points|..]) == gen
  {
    var news := seq(|gen|, i requires 0 <= i < |gen| => Entry(LvLabel(o.last + 1 + i), gen[i]));
    var r := Output(o.points + news, o.last + |gen|, o.polylines + [gen]);
    assert r.points[|o.points|..] == news;
    assert Numbered(o) ==> Numbered(r) by {
      if Numbered(o) {
        forall i | 0 <= i < |r.points|
          ensures r.points[i].poleNumber == LvLabel(i + 1)
        {
          if i >= |o.points| {
            assert r.points[i] == news[i - |o.points|];
          }
        }
      }
    }
    r
  }

  /** How many of the first `k` features have a control pole to connect to. */
  ghost function Joining(layer: seq<Anchor>, k: nat): nat
    requires k <= |layer|
  {
    if k <= 1 then 0
    else Joining(layer, k - 1) + (if Partner(layer, k - 1).Some? then 1 else 0)
  }

  /** The polylines the first `k` features would draw, in order: the
      stations of every feature with a control pole to connect to and a
      span that is not vertical. */
  ghost function Runs(layer: seq<Anchor>, h: Host, k: nat): seq<seq<Vertex>>
    requires IsSqrt(h.sqrt) && k <= |layer|
  {
    if k <= 1 then [] else Runs(layer, h, k - 1) + RunOf(layer, h, k - 1)
  }

  /** The polyline of the feature at `index`, if it draws one. */
  ghost function RunOf(layer: seq<Anchor>, h: Host, index: nat): seq<seq<Vertex>>
    requires IsSqrt(h.sqrt) && index < |layer|
  {
    match Partner(layer, index)
    case None => []
    case Some(cp) => if Stations(layer[index], cp, h).Success? then [Stations(layer[index], cp, h).value] else []
  }

  /** The feature loop over the first `k` features. */
  function Walk(layer: seq<Anchor>, h: Host, k: nat): (r: Result<Output, DrawError>)
    requires IsSqrt(h.sqrt) && k <= |layer|
    ensures r.Failure? <==> exists i :: 0 < i < k && Contribution(layer, h, i).Failure?
    ensures r.Success? ==>
      && Numbered(r.value)
      && |r.value.polylines| == Joining(layer, k)
      && r.value.polylines == Runs(layer, h, k)
      && (k > 0 ==>
            && |r.value.points| >= 1
            && r.value.points[0] == Entry(LvLabel(1), Native(layer[0].at))
            && Vertices(r.value.points[1..]) == Flatten(r.value.polylines))
      && (k == 0 ==> r.value == Output([], 0, []))
    decreases k
  {
    if k == 0 then Success(Output([], 0, []))
    else if k == 1 then Success(Output([Entry(LvLabel(1), Native(layer[0].at))], 1, []))
    else
      var o :- Walk(layer, h, k - 1);
      var c :- Contribution(layer, h, k - 1);
      match c
      case None => Success(o)
      case Some(gen) =>
        var r := AddRun(o, gen);
        RunVertices(o, gen, r);
        Success(r)
  }

  lemma RunVertices(o: Output, gen: seq<Vertex>, r: Output)
    requires |o.points| >= 1 && Vertices(o.points[1..]) == Flatten(o.polylines)
    requires o.points <= r.points && Vertices(r.points[|o.points|..]) == gen
    requires r.polylines == o.polylines + [gen]
    ensures Vertices(r.points[1..]) == Flatten(r.polylines)
  {
    assert r.polylines[..|r.polylines| - 1] == o.polylines;
    assert r.points[1..] == o.points[1..] + r.points[|o.points|..];
    VerticesConcat(o.points[1..], r.points[|o.points|..]);
  }

  /** The whole script: every feature in layer order. */
  function Draw(layer: seq<Anchor>, h: Host): (r: Result<Output, DrawError>)
    requires IsSqrt(h.sqrt)
    ensures r.Failure? <==>
      exists i :: 0 < i < |layer| && Partner(layer, i).Some?
        && Backward(layer[i], Partner(layer, i).value, h).x == Forward(layer[i], h).x
    ensures r.Success? ==>
      && Numbered(r.value)
      && |r.value.polylines| == Joining(layer, |layer|)
      && r.value.polylines == Runs(layer, h, |layer|)
      && (|layer| > 0 ==>
            && |r.value.points| >= 1
            && r.value.points[0] == Entry(LvLabel(1), Native(layer[0].at))
            && Vertices(r.value.points[1..]) == Flatten(r.value.polylines))
      && (|layer| == 0 ==> r.value == Output([], 0, []))
  {
    VerticalFails(layer, h);
    Walk(layer, h, |layer|)
  }

  /** The loop fails exactly when some feature with a control pole to
      connect to has a vertical span. */
  lemma VerticalFails(layer: seq<Anchor>, h: Host)
    requires IsSqrt(h.sqrt)
    ensures (exists i :: 0 < i < |layer| && Contribution(layer, h, i).Failure?) <==>
      exists i :: 0 < i < |layer| && Partner(layer, i).Some?
        && Backward(layer[i], Partner(layer, i).value, h).x == Forward(layer[i], h).x
  {
    if exists i :: 0 < i < |layer| && Contribution(layer, h, i).Failure? {
      var i :| 0 < i < |layer| && Contribution(layer, h, i).Failure?;
      assert Partner(layer, i).Some? && Backward(layer[i], Partner(layer, i).value, h).x == Forward(layer[i], h).x;
    }
    if exists i :: 0 < i < |layer| && Partner(layer, i).Some?
        && Backward(layer[i], Partner(layer, i).value, h).x == Forward(layer[i], h).x {
      var i :| 0 < i < |layer| && Partner(layer, i).Some?
        && Backward(layer[i], Partner(layer, i).value, h).x == Forward(layer[i], h).x;
      assert Contribution(layer, h, i).Failure?;
    }
  }

  // ----- Properties -----

  /** Station 0 is the backward anchor itself. */
  lemma StationZero(a: XY, b: XY, d: real, sqrt: real -> real)
    requires IsSqrt(sqrt) && a.x != b.x
    ensures Along(a, b, d, 0, sqrt) == a
  {
  }

  /** `v` is station `k` of the span from `cp` towards `a`: on the line
      through both anchors, `k * spacing` from the control pole, on the
      feature's side. */
  ghost predicate IsStation(a: Anchor, cp: Anchor, h: Host, k: nat, v: Vertex)
    requires IsSqrt(h.sqrt)
  {
    var g1 := Backward(a, cp, h);
    var g2 := Forward(a, h);
    var d := LvSpan(a, cp, h).spacing;
    && g1.x != g2.x
    && v == Grid(Along(g1, g2, d, k, h.sqrt))
    && OnRay(g1, g2, Along(g1, g2, d, k, h.sqrt), k as real * d)
  }

  /** Station k of a span: on the line through both anchors, `k * spacing`
      from the control pole, on the feature's side. */
  lemma StationsGeometry(a: Anchor, cp: Anchor, h: Host, k: nat)
    requires IsSqrt(h.sqrt)
    requires Stations(a, cp, h).Success? && k < |Stations(a, cp, h).value|
    requires h.measure(a.at, cp.at) >= 0.0
    ensures IsStation(a, cp, h, k, Stations(a, cp, h).value[k])
  {
    StationAt(a, cp, h, k);
    OnStationRay(a, cp, h, k, Stations(a, cp, h).value[k]);
  }

  lemma OnStationRay(a: Anchor, cp: Anchor, h: Host, k: nat, v: Vertex)
    requires IsSqrt(h.sqrt) && Backward(a, cp, h).x != Forward(a, h).x
    requires LvSpan(a, cp, h).spacing >= 0.0
    requires v == Grid(Along(Backward(a, cp, h), Forward(a, h), LvSpan(a, cp, h).spacing, k, h.sqrt))
    ensures IsStation(a, cp, h, k, v)
  {
    StationGeometry(Backward(a, cp, h), Forward(a, h), LvSpan(a, cp, h).spacing, k, h.sqrt);
  }

  lemma StationAt(a: Anchor, cp: Anchor, h: Host, k: nat)
    requires IsSqrt(h.sqrt)
    requires Stations(a, cp, h).Success? && k < |Stations(a, cp, h).value|
    requires h.measure(a.at, cp.at) >= 0.0
    ensures Backward(a, cp, h).x != Forward(a, h).x
    ensures Stations(a, cp, h).value[k] == Grid(Along(Backward(a, cp, h), Forward(a, h), LvSpan(a, cp, h).spacing, k, h.sqrt))
    ensures LvSpan(a, cp, h).spacing >= 0.0
  {
  }

  /** Each polyline of the output is the station list of one feature that
      has a control pole to connect to, so `StationsGeometry` applies to
      every one of its vertices. */
  lemma PolylineStations(layer: seq<Anchor>, h: Host, t: nat)
    requires IsSqrt(h.sqrt) && Draw(layer, h).Success?
    requires t < |Draw(layer, h).value.polylines|
    ensures exists i :: (0 < i < |layer| && Partner(layer, i).Some?
      && Stations(layer[i], Partner(layer, i).value, h).Success?
      && Draw(layer, h).value.polylines[t] == Stations(layer[i], Partner(layer, i).value, h).value)
  {
    RunsAreStations(layer, h, |layer|, t);
  }

  /** Vertex k of every output polyline is station k of the span of some
      feature with a control pole to connect to. */
  lemma PolylineGeometry(layer: seq<Anchor>, h: Host, t: nat, k: nat)
    requires IsSqrt(h.sqrt) && Draw(layer, h).Success?
    requires forall p, q :: h.measure(p, q) >= 0.0
    requires t < |Draw(layer, h).value.polylines| && k < |Draw(layer, h).value.polylines[t]|
    ensures exists i :: (0 < i < |layer| && Partner(layer, i).Some?
      && IsStation(layer[i], Partner(layer, i).value, h, k, Draw(layer, h).value.polylines[t][k]))
  {
    var poly := Draw(layer, h).value.polylines[t];
    PolylineStations(layer, h, t);
    var i :| 0 < i < |layer| && Partner(layer, i).Some?
      && Stations(layer[i], Partner(layer, i).value, h).Success?
      && poly == Stations(layer[i], Partner(layer, i).value, h).value;
    StationsGeometry(layer[i], Partner(layer, i).value, h, k);
  }

  lemma {:induction false} RunsAreStations(layer: seq<Anchor>, h: Host, k: nat, t: nat)
    requires IsSqrt(h.sqrt) && k <= |layer| && t < |Runs(layer, h, k)|
    ensures exists i :: (0 < i < k && Partner(layer, i).Some?
      && Stations(layer[i], Partner(layer, i).value, h).Success?
      && Runs(layer, h, k)[t] == Stations(layer[i], Partner(layer, i).value, h).value)
    decreases k
  {
    if t < |Runs(layer, h, k - 1)| {
      RunsAreStations(layer, h, k - 1, t);
    } else {
      assert Partner(layer, k - 1).Some?;
    }
  }

  /** Every label after the root is LV02, LV03, ... and no two points share
      a label. */
  lemma LabelsDistinct(layer: seq<Anchor>, h: Host, i: nat, j: nat)
    requires IsSqrt(h.sqrt) && Draw(layer, h).Success?
    requires i < j < |Draw(layer, h).value.points|
    ensures Draw(layer, h).value.points[i].poleNumber != Draw(layer, h).value.points[j].poleNumber
  {
    var ps := Draw(layer, h).value.points;
    if ps[i].poleNumber == ps[j].poleNumber {
      LabelInjective("LV", i + 1, j + 1, 2);
    }
  }
}

=== FILE: projection.dfy ===
/** The projected-frame geometry the drawer scripts share: the UTM zone and
    its EPSG code, chosen from a feature's longitude; the host services
    (coordinate transform, geodesic distance, square root) as opaque
    functions; and straight-line stepping from one anchor towards another
    with slope `m` and signed step `dx = d / sqrt(1 + m^2)`. */
module Projection {
  import opened Wrappers
  import opened Text

  datatype XY = XY(x: real, y: real)

  /** A vertex of generated output, tagged with the frame its coordinates
      are in. */
  datatype Vertex =
    | Grid(p: XY)       // projected (UTM) coordinates, which the host maps back to the layer's CRS
    | GridNoY(x: real)  // projected, with y not a number: a vertical span multiplies inf by 0
    | Native(p: XY)     // an input feature's own geometry, not transformed at all

  /** What the scripts take from the host toolkit: the transform into the
      UTM CRS of a zone (the CRS the string `UtmCrs(zone)` names), the
      geodesic distance in metres on WGS84, and `math.sqrt`. */
  datatype Host = Host(toGrid: (int, XY) -> XY, measure: (XY, XY) -> real, sqrt: real -> real)

  /** `sqrt` returns the non-negative square root of every non-negative real. */
  ghost predicate IsSqrt(sqrt: real -> real) {
    forall a :: 0.0 <= a ==> 0.0 <= sqrt(a) && sqrt(a) * sqrt(a) == a
  }

  /** `math.floor((lon + 180) / 6) + 1`. */
  function UtmZone(lon: real): int {
    ((lon + 180.0) / 6.0).Floor + 1
  }

  /** `f'EPSG:326{zone:02d}'`, the WGS 84 / UTM north CRS for the zone. */
  function UtmCrs(zone: int): string {
    "EPSG:326" + PadInt(zone, 2)
  }

  /** `(b.y - a.y) / (b.x - a.x)`; Python raises ZeroDivisionError when the
      x coordinates agree, so callers decide that case first. */
  function Slope(a: XY, b: XY): real
    requires a.x != b.x
  {
    (b.y - a.y) / (b.x - a.x)
  }

  /** `delta_x`: the step length `d` projected on the x axis, signed
      towards `x2` (the negative step is taken whenever `x2 <= x1`). */
  function StepX(d: real, slope: real, x1: real, x2: real, sqrt: real -> real): real
    requires IsSqrt(sqrt)
  {
    var root := sqrt(1.0 + slope * slope);
    assert root * root == 1.0 + slope * slope;
    var step := d / root;
    if x2 > x1 then step else -step
  }

  /** The k-th station from `origin`: `(x1 + dx*k, y1 + slope*dx*k)`. */
  function Station(origin: XY, slope: real, dx: real, k: int): XY {
    XY(origin.x + dx * k as real, origin.y + slope * dx * k as real)
  }

  function Sq(v: real): real {
    v * v
  }

  lemma SqProduct(u: real, v: real)
    ensures Sq(u * v) == Sq(u) * Sq(v)
  {
  }

  // ----- Properties -----

  /** Every longitude in [-180, 180) falls in a zone 1..60. */
  lemma UtmZoneRange(lon: real)
    requires -180.0 <= lon < 180.0
    ensures 1 <= UtmZone(lon) <= 60
  {
    var q := (lon + 180.0) / 6.0;
    assert 0.0 <= q < 60.0;
  }

  /** The antimeridian itself gives zone 61, outside the UTM grid. */
  lemma UtmZoneAntimeridian()
    ensures UtmZone(180.0) == 61
  {
    assert (180.0 + 180.0) / 6.0 == 60.0;
  }

  /** For a zone 1..60 the CRS is "EPSG:326" followed by exactly two digits
      that read back as the zone. */
  lemma UtmCrsShape(zone: int)
    requires 1 <= zone <= 60
    ensures |UtmCrs(zone)| == 10
    ensures UtmCrs(zone)[..8] == "EPSG:326"
    ensures AllDigits(UtmCrs(zone)[8..])
    ensures ParseInt(UtmCrs(zone)[8..]) == Some(zone)
  {
    PadIntWidth(zone, 2);
    ParsePadRoundTrip(zone, 2);
    ZeroFillValue(Digits(zone), 2);
    assert UtmCrs(zone)[8..] == PadInt(zone, 2);
  }

  /** The step has length `d` along the line: `dx^2 * (1 + m^2) == d^2`. */
  lemma StepLength(d: real, slope: real, x1: real, x2: real, sqrt: real -> real)
    requires IsSqrt(sqrt)
    ensures Sq(StepX(d, slope, x1, x2, sqrt)) * (1.0 + Sq(slope)) == Sq(d)
  {
    var root := sqrt(1.0 + slope * slope);
    assert root * root == 1.0 + slope * slope;
    RootPositive(slope, sqrt);
    var step := d / root;
    assert step * root == d;
    assert Sq(step) * (root * root) == (step * root) * (step * root);
    var dx := StepX(d, slope, x1, x2, sqrt);
    assert Sq(dx) == Sq(step);
  }

  /** A step of non-negative length points from `x1` towards `x2`,
      strictly so when the length is positive. */
  lemma StepSign(d: real, slope: real, x1: real, x2: real, sqrt: real -> real)
    requires IsSqrt(sqrt) && d >= 0.0
    ensures x2 > x1 ==> StepX(d, slope, x1, x2, sqrt) >= 0.0
    ensures x2 <= x1 ==> StepX(d, slope, x1, x2, sqrt) <= 0.0
    ensures d > 0.0 && x2 > x1 ==> StepX(d, slope, x1, x2, sqrt) > 0.0
    ensures d > 0.0 && x2 <= x1 ==> StepX(d, slope, x1, x2, sqrt) < 0.0
  {
    var root := sqrt(1.0 + slope * slope);
    RootPositive(slope, sqrt);
    QuotientSign(d, root);
  }

  lemma RootPositive(slope: real, sqrt: real -> real)
    requires IsSqrt(sqrt)
    ensures sqrt(1.0 + slope * slope) > 0.0
  {
    var root := sqrt(1.0 + slope * slope);
    assert root * root == 1.0 + slope * slope;
  }

  lemma QuotientSign(d: real, root: real)
    requires root > 0.0
    ensures d >= 0.0 ==> d / root >= 0.0
    ensures d > 0.0 ==> d / root > 0.0
  {
  }

  /** Station k on the straight run from `a` towards `b` with step length
      `d`, as every drawer computes it. */
  function Along(a: XY, b: XY, d: real, k: int, sqrt: real -> real): XY
    requires IsSqrt(sqrt) && a.x != b.x
  {
    var m := Slope(a, b);
    Station(a, m, StepX(d, m, a.x, b.x, sqrt), k)
  }

  /** `p` lies on the line through `a` and `b`, at distance `dist` from
      `a`, on `b`'s side of `a` along x. */
  ghost predicate OnRay(a: XY, b: XY, p: XY, dist: real) {
    && (p.y - a.y) * (b.x - a.x) == (p.x - a.x) * (b.y - a.y)
    && Sq(p.x - a.x) + Sq(p.y - a.y) == Sq(dist)
    && (b.x > a.x ==> p.x >= a.x)
    && (b.x < a.x ==> p.x <= a.x)
  }

  /** Station k of a span from `a` towards `b` lies on the line through both
      anchors, at distance `k * d` from `a`, on `b`'s side of `a` along x,
      strictly so once it has moved. */
  lemma StationGeometry(a: XY, b: XY, d: real, k: nat, sqrt: real -> real)
    requires IsSqrt(sqrt) && a.x != b.x && d >= 0.0
    ensures OnRay(a, b, Along(a, b, d, k, sqrt), k as real * d)
    ensures d > 0.0 && k > 0 ==> Along(a, b, d, k, sqrt).x != a.x
  {
    AlongOnLine(a, b, d, k, sqrt);
    AlongDistance(a, b, d, k, sqrt);
    AlongSide(a, b, d, k, sqrt);
  }

  lemma AlongOnLine(a: XY, b: XY, d: real, k: nat, sqrt: real -> real)
    requires IsSqrt(sqrt) && a.x != b.x
    ensures (Along(a, b, d, k, sqrt).y - a.y) * (b.x - a.x) == (Along(a, b, d, k, sqrt).x - a.x) * (b.y - a.y)
  {
    StationOnLine(a, b, StepX(d, Slope(a, b), a.x, b.x, sqrt), k);
  }

  lemma AlongDistance(a: XY, b: XY, d: real, k: nat, sqrt: real -> real)
    requires IsSqrt(sqrt) && a.x != b.x
    ensures Sq(Along(a, b, d, k, sqrt).x - a.x) + Sq(Along(a, b, d, k, sqrt).y - a.y) == Sq(k as real * d)
  {
    var m := Slope(a, b);
    var dx := StepX(d, m, a.x, b.x, sqrt);
    var p := Along(a, b, d, k, sqrt);
    var kr := k as real;
    var len := Sq(dx) * (1.0 + Sq(m));
    assert len == Sq(d) by {
      StepLength(d, m, a.x, b.x, sqrt);
    }
    assert p.x == a.x + dx * kr && p.y == a.y + m * dx * kr;
    DistanceChain(p.x, p.y, a.x, a.y, m, dx, kr, d);
  }

  lemma AlongSide(a: XY, b: XY, d: real, k: nat, sqrt: real -> real)
    requires IsSqrt(sqrt) && a.x != b.x && d >= 0.0
    ensures b.x > a.x ==> Along(a, b, d, k, sqrt).x >= a.x
    ensures b.x < a.x ==> Along(a, b, d, k, sqrt).x <= a.x
    ensures d > 0.0 && k > 0 ==> Along(a, b, d, k, sqrt).x != a.x
  {
    var m := Slope(a, b);
    var dx := StepX(d, m, a.x, b.x, sqrt);
    var px := Along(a, b, d, k, sqrt).x;
    var kr := k as real;
    assert px == a.x + dx * kr;
    StepSign(d, m, a.x, b.x, sqrt);
    ScaledSide(px, a.x, dx, kr);
  }

  lemma StationOnLine(a: XY, b: XY, dx: real, k: int)
    requires a.x != b.x
    ensures var p := Station(a, Slope(a, b), dx, k);
      (p.y - a.y) * (b.x - a.x) == (p.x - a.x) * (b.y - a.y)
  {
    var m := Slope(a, b);
    var u := dx * k as real;
    assert m * (b.x - a.x) == b.y - a.y;
    assert (m * u) * (b.x - a.x) == u * (m * (b.x - a.x));
  }

  /** The point `(ax + dx*kr, ay + m*dx*kr)` is `|dx| * sqrt(1 + m^2) * kr`
      from `(ax, ay)`, squared. */
  lemma OffsetDistance(px: real, py: real, ax: real, ay: real, m: real, dx: real, kr: real)
    requires px == ax + dx * kr && py == ay + m * dx * kr
    ensures Sq(px - ax) + Sq(py - ay) == (Sq(dx) * (1.0 + Sq(m))) * Sq(kr)
  {
    var u := dx * kr;
    assert px - ax == u && py - ay == m * u;
    SqProduct(dx, kr);
    SqProduct(m, u);
    assert Sq(u) + Sq(m) * Sq(u) == (1.0 + Sq(m)) * Sq(u);
  }

  /** A step whose length is `d` taken `kr` times is `kr * d` long. */
  lemma DistanceChain(px: real, py: real, ax: real, ay: real, m: real, dx: real, kr: real, d: real)
    requires px == ax + dx * kr && py == ay + m * dx * kr
    requires Sq(dx) * (1.0 + Sq(m)) == Sq(d)
    ensures Sq(px - ax) + Sq(py - ay) == Sq(kr * d)
  {
    var len := Sq(dx) * (1.0 + Sq(m));
    OffsetDistance(px, py, ax, ay, m, dx, kr);
    SqProduct(kr, d);
    Rescaled(Sq(px - ax) + Sq(py - ay), len, Sq(d), Sq(kr), Sq(kr * d));
  }

  lemma Rescaled(t: real, len: real, sd: real, sk: real, target: real)
    requires t == len * sk && len == sd && target == sk * sd
    ensures t == target
  {
  }

  /** `px = ax + dx * kr` with `kr >= 0` lies on the side of `ax` that
      `dx` points to, and away from it once both are non-zero. */
  lemma ScaledSide(px: real, ax: real, dx: real, kr: real)
    requires px == ax + dx * kr && kr >= 0.0
    ensures dx >= 0.0 ==> px >= ax
    ensures dx <= 0.0 ==> px <= ax
    ensures dx != 0.0 && kr > 0.0 ==> px != ax
  {
  }
}

=== FILE: spacing.dfy ===
/** `calculate_points_distance`: splitting a span into equal segments no
    longer than a maximum, in its two shapes (the four drawer scripts' copy,
    which never reads its minimum, and the util_services copy, which returns
    no segment below the minimum), and the tier policy line_drawer.py uses
    to pick the limits. Distances are exact reals; Python's float `//` and
    `%` are floor division and the floored remainder. */
module Spacing {
  import opened Wrappers
  import opened Text

  /** `(number_of_points, distance_between_points)`. */
  datatype Span = Span(count: int, spacing: real)

  datatype SpanError = DivisionByZero

  /** Python's `a // b` on floats. */
  function FloorDiv(a: real, b: real): int
    requires b != 0.0
  {
    (a / b).Floor
  }

  /** Python's `a % b` on floats: the remainder takes the divisor's sign. */
  function FloorMod(a: real, b: real): real
    requires b != 0.0
  {
    a - b * FloorDiv(a, b) as real
  }

  /** The segment count both copies compute for a span that is not cut
      short: the quotient, plus one when something remains. */
  function SegmentCount(total: real, maxDistance: real): (k: int)
    requires maxDistance > 0.0
    ensures (k - 1) as real * maxDistance < total <= k as real * maxDistance
  {
    var q := FloorDiv(total, maxDistance);
    FloorDivBounds(total, maxDistance);
    if FloorMod(total, maxDistance) > 0.0 then q + 1 else q
  }

  /** The drawer scripts' `calculate_points_distance`: a span shorter than
      the maximum is one segment; otherwise the count is the ceiling of
      total / max and the span is shared equally. The minimum is never read. */
  function ResolveSpan(total: real, minDistance: real, maxDistance: real): (r: Span)
    requires maxDistance > 0.0
    ensures total < maxDistance ==> r == Span(1, total)
    ensures total >= maxDistance ==>
      && r.count >= 1
      && (r.count - 1) as real * maxDistance < total <= r.count as real * maxDistance
      && r.count as real * r.spacing == total
      && 0.0 < r.spacing <= maxDistance
  {
    if total < maxDistance then Span(1, total)
    else
      var k := SegmentCount(total, maxDistance);
      assert k >= 1 by {
        assert (k - 1) as real * maxDistance < total;
        assert total <= k as real * maxDistance;
        assert 0.0 < k as real * maxDistance;
        PositiveFactor(k as real, maxDistance);
      }
      var r := Span(k, total / k as real);
      EqualShare(total, k, maxDistance);
      r
  }

  /** util_services.py's `calculate_points_distance`: no segment at all below
      the minimum; otherwise the floor quotient, plus one when the floor
      remainder is positive, and the span shared by that count. A maximum of
      zero makes `//` raise; a count of zero (a total in (-max, 0] for a
      positive maximum) makes the final division raise. */
  function ResolveSpanWithMin(total: real, minDistance: real, maxDistance: real): (r: Result<Span, SpanError>)
    ensures total < minDistance ==> r == Success(Span(0, total))
    ensures maxDistance == 0.0 ==> (r.Failure? <==> minDistance <= total)
    ensures maxDistance > 0.0 ==> (r.Failure? <==> minDistance <= total && -maxDistance < total <= 0.0)
    ensures r.Success? && minDistance <= total ==>
      r.value.count != 0 && r.value.count as real * r.value.spacing == total
    ensures r.Success? && minDistance <= total && maxDistance > 0.0 ==>
      (r.value.count - 1) as real * maxDistance < total <= r.value.count as real * maxDistance
    ensures r.Success? && minDistance <= total && total > 0.0 && maxDistance > 0.0 ==>
      r.value.count >= 1 && r.value.spacing <= maxDistance
    ensures minDistance <= total < maxDistance && total > 0.0 ==> r == Success(Span(1, total))
  {
    if total < minDistance then Success(Span(0, total))
    else if maxDistance == 0.0 then Failure(DivisionByZero)
    else
      var q := FloorDiv(total, maxDistance);
      var k := if FloorMod(total, maxDistance) > 0.0 then q + 1 else q;
      SharedCount(total, maxDistance, k);
      if k == 0 then Failure(DivisionByZero)
      else Success(Span(k, total / k as real))
  }

  /** The three tiers line_drawer.py chooses between, as (min, max) pairs. */
  datatype Tier = Tier(minDistance: real, maxDistance: real)

  /** line_drawer.py's policy: branches whose control pole id starts with
      "CP_13" use (122, 125); otherwise a span in (110, 116] uses (110, 116)
      and every other span (100, 110). */
  function PoleTier(controlPole: string, total: real): (t: Tier)
    ensures 0.0 < t.minDistance < t.maxDistance
    ensures 110.0 <= t.maxDistance <= 125.0
    ensures !StartsWith(controlPole, "CP_13") ==> t.maxDistance <= 116.0
    ensures StartsWith(controlPole, "CP_13") ==> t == Tier(122.0, 125.0)
  {
    if StartsWith(controlPole, "CP_13") then Tier(122.0, 125.0)
    else if total > 110.0 && total <= 116.0 then Tier(110.0, 116.0)
    else Tier(100.0, 110.0)
  }

  /** The limits manyani_mv_line_drawer.py passes for every span. */
  const MvTier := Tier(60.0, 115.0)

  /** The limits line_drawer_v1.py passes for every span. */
  const LvTier := Tier(35.0, 56.0)

  function ResolveTier(total: real, t: Tier): Span
    requires t.maxDistance > 0.0
  {
    ResolveSpan(total, t.minDistance, t.maxDistance)
  }

  // ----- Properties -----

  /** The drawer copy never reads its minimum: any two minima give the same span. */
  lemma ResolveIgnoresMinimum(total: real, min1: real, min2: real, maxDistance: real)
    requires maxDistance > 0.0
    ensures ResolveSpan(total, min1, maxDistance) == ResolveSpan(total, min2, maxDistance)
  {
  }

  /** Whatever the total, the drawer copy yields at least one segment, and
      for a non-negative total no segment is longer than the maximum. */
  lemma ResolveSpanBounds(total: real, minDistance: real, maxDistance: real)
    requires maxDistance > 0.0
    ensures ResolveSpan(total, minDistance, maxDistance).count >= 1
    ensures total >= 0.0 ==> ResolveSpan(total, minDistance, maxDistance).spacing <= maxDistance
    ensures ResolveSpan(total, minDistance, maxDistance).count as real
            * ResolveSpan(total, minDistance, maxDistance).spacing == total
  {
  }

  /** The tier outcomes: "CP_13" branches are cut to at most 125, a
      non-"CP_13" span in (110, 116] is always exactly one segment, and
      every other non-negative span is cut to at most 110. */
  lemma PoleTierOutcome(controlPole: string, total: real)
    requires total >= 0.0
    ensures var s := ResolveTier(total, PoleTier(controlPole, total));
      && (StartsWith(controlPole, "CP_13") ==>
            s.spacing <= 125.0 && s.count >= 1
            && (total < 125.0 ==> s == Span(1, total))
            && (total >= 125.0 ==> (s.count - 1) as real * 125.0 < total <= s.count as real * 125.0))
      && (!StartsWith(controlPole, "CP_13") && 110.0 < total <= 116.0 ==> s == Span(1, total))
      && (!StartsWith(controlPole, "CP_13") && !(110.0 < total <= 116.0) ==>
            s.spacing <= 110.0
            && (total >= 110.0 ==> (s.count - 1) as real * 110.0 < total <= s.count as real * 110.0))
  {
    var t := PoleTier(controlPole, total);
    if !StartsWith(controlPole, "CP_13") && 110.0 < total <= 116.0 {
      if total == 116.0 {
        assert SegmentCount(116.0, 116.0) == 1;
      }
    }
  }

  /** The MV limits: a span under 115 is one segment, a longer one is cut
      into ceil(total / 115) equal segments of at most 115. */
  lemma MvTierOutcome(total: real)
    ensures var s := ResolveTier(total, MvTier);
      && (total < 115.0 ==> s == Span(1, total))
      && (total >= 115.0 ==> (s.count - 1) as real * 115.0 < total <= s.count as real * 115.0
                             && s.spacing <= 115.0)
  {
  }

  // ----- Arithmetic helpers -----

  lemma FloorDivBounds(a: real, b: real)
    requires b > 0.0
    ensures FloorDiv(a, b) as real * b <= a < (FloorDiv(a, b) + 1) as real * b
    ensures 0.0 <= FloorMod(a, b) < b
  {
    var q := FloorDiv(a, b);
    var x := a / b;
    assert x * b == a;
    assert q as real <= x < q as real + 1.0;
    MultiplyBounds(q as real, x, b);
    MultiplyBounds(x, q as real + 1.0, b);
    assert a < (q as real + 1.0) * b;
    assert (q + 1) as real == q as real + 1.0;
  }

  lemma MultiplyBounds(x: real, y: real, b: real)
    requires b > 0.0 && x <= y
    ensures x * b <= y * b
    ensures x < y ==> x * b < y * b
  {
  }

  lemma DivideBounds(x: real, y: real, k: real)
    requires k > 0.0 && x <= y
    ensures x / k <= y / k
  {
  }

  lemma PositiveFactor(k: real, m: real)
    requires m > 0.0 && k * m > 0.0
    ensures k > 0.0
  {
  }

  /** Sharing `total` equally among `k >= total / max` segments keeps each within max. */
  lemma EqualShare(total: real, k: int, maxDistance: real)
    requires maxDistance > 0.0 && k >= 1 && total > 0.0
    requires total <= k as real * maxDistance
    ensures k as real * (total / k as real) == total
    ensures 0.0 < total / k as real <= maxDistance
  {
    var kr := k as real;
    assert kr * (total / kr) == total;
    DivideBounds(total, kr * maxDistance, kr);
    assert (kr * maxDistance) / kr == maxDistance;
  }

  lemma CountSign(total: real, maxDistance: real, k: int)
    requires maxDistance > 0.0 && k != 0
    requires (k - 1) as real * maxDistance < total <= k as real * maxDistance
    ensures k as real * (total / k as real) == total
    ensures total > 0.0 ==> k >= 1 && total / k as real <= maxDistance
  {
    if total > 0.0 {
      if k < 1 {
        MultiplyBounds(k as real, 0.0, maxDistance);
      }
      EqualShare(total, k, maxDistance);
    }
  }

  /** The facts about a count computed the way
      `calculate_points_distance` computes it. */
  lemma SharedCount(total: real, maxDistance: real, k: int)
    requires maxDistance != 0.0
    requires k == FloorDiv(total, maxDistance) + (if FloorMod(total, maxDistance) > 0.0 then 1 else 0)
    ensures k != 0 ==> k as real * (total / k as real) == total
    ensures maxDistance > 0.0 ==>
      && (k - 1) as real * maxDistance < total <= k as real * maxDistance
      && (k == 0 <==> -maxDistance < total <= 0.0)
      && (total > 0.0 ==> k >= 1 && total / k as real <= maxDistance)
      && (0.0 < total < maxDistance ==> k == 1)
  {
    if maxDistance > 0.0 {
      var sc := SegmentCount(total, maxDistance);
      assert k == sc;
      assert (k - 1) as real * maxDistance < total <= k as real * maxDistance;
      if k != 0 {
        CountSign(total, maxDistance, k);
      }
      CountRange(total, maxDistance, k);
    }
  }

  /** Where a count with the ceiling bounds is zero, and where it is one. */
  lemma CountRange(total: real, m: real, k: int)
    requires m > 0.0
    requires (k - 1) as real * m < total <= k as real * m
    ensures k == 0 <==> -m < total <= 0.0
    ensures 0.0 < total < m ==> k == 1
  {
    if k <= -1 {
      MultiplyBounds(k as real, -1.0, m);
      assert total <= -m;
    } else if k >= 2 {
      MultiplyBounds(1.0, (k - 1) as real, m);
      assert total > m;
    } else if k == 1 {
      assert total > 0.0;
    }
  }
}

=== FILE: staking_sheet.dfy ===
/** export_staking_sheet_to_excel.py: one staking-sheet row per pole of a
    pole layer. The row's 22 columns are read from fixed attribute
    positions and recoded: the pole class from its height, the J10/J19
    structure counts, the guy wire text `"<count> x <type>"`, and the
    K10/K30 units. An MV layer is sorted by `pole_id` first. */
module StakingSheet {
  import opened Wrappers
  import opened Text

  /** An attribute value as the script sees it: NULL, an integer, a float
      or a string. NULL compares equal to `None` and is false. */
  datatype Value = Null | Int(i: int) | Real(r: real) | Str(s: string)

  /** The texts `str()` gives that come from the host: that of NULL (the
      host's null value, or `None`) and that of a float (its `repr`). */
  datatype Formats = Formats(nullText: string, floatText: real -> string)

  /** Python's `str(v)`. */
  function Show(v: Value, fmt: Formats): (r: string)
    ensures v.Int? ==> |r| >= 1 && (r[0] == '-' <==> v.i < 0)
    ensures v.Str? ==> r == v.s
  {
    match v
    case Null => fmt.nullText
    case Int(i) => PadInt(i, 0)
    case Real(r) => fmt.floatText(r)
    case Str(s) => s
  }

  /** `int(str(n))` is `n`, whatever the host's formats. */
  lemma ShowReadsBack(n: int, fmt: Formats)
    ensures ParseInt(Show(Int(n), fmt)) == Some(n)
  {
    ParsePadRoundTrip(n, 0);
  }

  /** Python truthiness: NULL, zero and the empty string are false. */
  predicate Truthy(v: Value) {
    match v
    case Null => false
    case Int(i) => i != 0
    case Real(r) => r != 0.0
    case Str(s) => s != ""
  }

  /** `v == 0` and `v == 1`: a number compares by value, a string never
      equals a number. */
  predicate IsZero(v: Value) {
    v == Int(0) || v == Real(0.0)
  }

  /** Truthiness and comparison with zero agree on numbers: a value is
      false exactly when it is NULL, a numeric zero or the empty string. */
  lemma TruthyExactly(v: Value)
    ensures Truthy(v) <==> !(v.Null? || IsZero(v) || v == Str(""))
  {
  }

  predicate IsOne(v: Value) {
    v == Int(1) || v == Real(1.0)
  }

  /** `v if v != None else ''`. */
  function OrEmpty(v: Value): (r: Value)
    ensures r.Null? == false
    ensures v.Null? ==> r == Str("")
    ensures !v.Null? ==> r == v
  {
    if v.Null? then Str("") else v
  }

  /** A pole feature: its `pole_id` (the MV sort key) and its attribute
      list in field order. */
  datatype Feature = Feature(poleId: int, attrs: seq<Value>)

  /** One row of the sheet, one field per column, in column order. */
  datatype Row = Row(
    poleNumber: Value, latitude: Value, longitude: Value, height: Value,
    lineAngle: Value, primaryBackSpan: Value, primaryStructure: Value, backSpan: Value,
    structureQty: Value, structureUnit: Value, conductor: Value, groundingAssembly: Value,
    guyQty: Value, guyType: Value, guyLead: Value, anchorQty: Value, anchorType: Value,
    k10: Value, singlePhaseUnit: Value, k30: Value, threePhaseUnit: Value, streetlight: Value)

  /** `IndexError` when a feature has too few attributes; `ValueError` when
      the count in a guy text is not an integer. */
  datatype SheetError = MissingAttribute(count: nat) | BadGuyCount(text: string)

  /** The column titles, in order (`table_headers.values()`). */
  const Headers: seq<string> := [
    "Pole Number", "Latitude", "Longitude", "Class & height", "Angle", "Back span",
    "Structure Type", "Secondary Back span", "Structure Quantity", "J", "Conductor Size",
    "Ground Unit M", "Quantity", "Guy Type", "Guy Lead (m)", "Anchor Quantity",
    "Anchor Type", "Single Phase Qty", "Single phase unit", "Three-Phase Qty",
    "Three-phase unit", "Streetlight M unit"]

  /** The highest attribute position the script reads is 17. */
  const AttributeCount: nat := 18

  /** `layer_name[:2]`. */
  function LineType(layerName: string): (r: string)
    ensures |layerName| >= 2 ==> |r| == 2 && r == layerName[..2]
    ensures |layerName| < 2 ==> r == layerName
  {
    if |layerName| < 2 then layerName else layerName[..2]
  }

  /** The pole class and height from the height attribute: 30ft and 35ft
      are recognised, anything else is a 40ft class 4 pole. */
  function Height(v: Value): (r: Value)
    ensures r == Str("30'/6") || r == Str("35'/5") || r == Str("40'/4")
    ensures r == Str("30'/6") <==> v == Str("30ft")
    ensures r == Str("35'/5") <==> v == Str("35ft")
  {
    if v == Str("30ft") then Str("30'/6")
    else if v == Str("35ft") then Str("35'/5")
    else Str("40'/4")
  }

  /** The structure quantity and unit from the J10 and J19 counts. Only the
      J10 count is tested for NULL (the script tests it twice). */
  function Structure(j10: Value, j19: Value, fmt: Formats): (r: (Value, Value))
    ensures j10.Null? ==> r == (Str(""), Str(""))
    ensures !j10.Null? && IsZero(j10) ==> r == (j19, Str("J19"))
    ensures !j10.Null? && !IsZero(j10) && IsZero(j19) ==> r == (j10, Str("J10"))
    ensures !j10.Null? && !IsZero(j10) && !IsZero(j19) ==> r.0 == Int(1)
  {
    if j10.Null? then (Str(""), Str(""))
    else if IsZero(j10) then (j19, Str("J19"))
    else if IsZero(j19) then (j10, Str("J10"))
    else if IsOne(j10) && IsOne(j19) then (Int(1), Str("J10 + J19"))
    else if IsOne(j10) then (Int(1), Str("J10 + " + Show(j19, fmt) + "J19"))
    else if IsOne(j19) then (Int(1), Str(Show(j10, fmt) + "J10 + J19"))
    else (Int(1), Str(Show(j10, fmt) + "J10 + " + Show(j19, fmt) + "J19"))
  }

  /** The guy count and type from the guy text: when it splits on `" x "`
      into exactly two parts, the first must be an integer and the second
      is the type; otherwise both are empty. */
  function Guy(guy: Value, fmt: Formats): (r: Result<(Value, Value), SheetError>)
    ensures r.Success? ==> r.value.0 == Str("") || r.value.0.Int?
    ensures r.Success? && r.value.0 == Str("") ==> r.value.1 == Str("")
    ensures r.Failure? <==>
      |Split(Show(guy, fmt), " x ")| == 2 && ParseInt(Split(Show(guy, fmt), " x ")[0]).None?
  {
    var parts := Split(Show(guy, fmt), " x ");
    if |parts| == 2 then
      match ParseInt(parts[0])
      case None => Failure(BadGuyCount(parts[0]))
      case Some(n) => Success((Int(n), Str(parts[1])))
    else Success((Str(""), Str("")))
  }

  /** The row for one feature of a layer of the given line type. Every
      attribute read happens before the guy text is parsed, so a short
      attribute list raises first. */
  function ToRow(attrs: seq<Value>, lineType: string, fmt: Formats): (r: Result<Row, SheetError>)
    ensures |attrs| < AttributeCount ==> r == Failure(MissingAttribute(|attrs|))
    ensures |attrs| >= AttributeCount ==> (r.Failure? <==> Guy(attrs[6], fmt).Failure?)
    ensures r.Success? ==>
      var row := r.value;
      && (row.backSpan == Str("") || row.primaryBackSpan == Str(""))
      && (lineType == "mv" ==> row.primaryBackSpan == attrs[3])
      && (lineType != "mv" ==> row.primaryBackSpan == Str(""))
      && (lineType == "lv" ==> row.backSpan == attrs[3])
      && (lineType != "lv" ==> row.backSpan == Str(""))
      && row.poleNumber == attrs[1] && row.latitude == attrs[12] && row.longitude == attrs[13]
      && row.lineAngle == attrs[16] && row.primaryStructure == attrs[17] && row.conductor == attrs[11]
      && row.height == Height(attrs[4])
      && (row.structureQty, row.structureUnit) == Structure(attrs[8], attrs[7], fmt)
      && Guy(attrs[6], fmt) == Success((row.guyQty, row.guyType))
      && row.groundingAssembly == OrEmpty(attrs[5]) && row.streetlight == OrEmpty(attrs[14])
      && row.k10 == OrEmpty(attrs[9]) && row.k30 == OrEmpty(attrs[10])
      && (Truthy(row.guyQty) <==> row.guyLead != Str(""))
      && (Truthy(row.guyQty) <==> row.anchorType != Str(""))
      && row.anchorQty == row.guyQty
      && (Truthy(row.k10) <==> row.singlePhaseUnit == Str("K10"))
      && (Truthy(row.k30) <==> row.threePhaseUnit == Str("K30"))
      && (attrs[9].Null? ==> row.singlePhaseUnit == Str(""))
      && (attrs[10].Null? ==> row.threePhaseUnit == Str(""))
  {
    if |attrs| < AttributeCount then Failure(MissingAttribute(|attrs|))
    else
      var isMv := lineType == "mv";
      var k10 := OrEmpty(attrs[9]);
      var k30 := OrEmpty(attrs[10]);
      var structure := Structure(attrs[8], attrs[7], fmt);
      var guy :- Guy(attrs[6], fmt);
      var guyQty := guy.0;
      Success(Row(
        attrs[1], attrs[12], attrs[13], Height(attrs[4]),
        attrs[16], if isMv then attrs[3] else Str(""), attrs[17],
        if lineType == "lv" then attrs[3] else Str(""),
        structure.0, structure.1, attrs[11], OrEmpty(attrs[5]),
        guyQty, guy.1, if Truthy(guyQty) then Int(if isMv then 11 else 7) else Str(""),
        guyQty, if Truthy(guyQty) then Str(if isMv then "F1-2" else "F1-1") else Str(""),
        k10, if Truthy(k10) then Str("K10") else Str(""),
        k30, if Truthy(k30) then Str("K30") else Str(""),
        OrEmpty(attrs[14])))
  }

  /** The row's values in column order (`values`). */
  function Cells(row: Row): (r: seq<Value>)
    ensures |r| == |Headers|
    ensures r[0] == row.poleNumber && r[21] == row.streetlight
  {
    [row.poleNumber, row.latitude, row.longitude, row.height, row.lineAngle,
     row.primaryBackSpan, row.primaryStructure, row.backSpan, row.structureQty,
     row.structureUnit, row.conductor, row.groundingAssembly, row.guyQty, row.guyType,
     row.guyLead, row.anchorQty, row.anchorType, row.k10, row.singlePhaseUnit, row.k30,
     row.threePhaseUnit, row.streetlight]
  }

  /** Python's `dict(zip(keys, values))`: a later duplicate key overwrites
      an earlier one. */
  function Zip(keys: seq<string>, values: seq<Value>): (r: map<string, Value>)
    requires |keys| == |values|
    ensures r.Keys == set k | 0 <= k < |keys| :: keys[k]
    ensures (forall i, j :: 0 <= i < j < |keys| ==> keys[i] != keys[j]) ==>
      forall k :: 0 <= k < |keys| ==> r[keys[k]] == values[k]
    decreases |keys|
  {
    if keys == [] then map[]
    else
      var n := |keys| - 1;
      var r := Zip(keys[..n], values[..n])[keys[n] := values[n]];
      assert forall k :: 0 <= k < n ==> keys[..n][k] == keys[k];
      r
  }

  /** The row as the sheet stores it: since the titles are distinct, every
      column keeps its own value. */
  function Record(row: Row): (r: map<string, Value>)
    ensures |r| == |Headers|
    ensures forall k :: 0 <= k < |Headers| ==> Headers[k] in r && r[Headers[k]] == Cells(row)[k]
  {
    HeadersCount();
    Zip(Headers, Cells(row))
  }

  /** So the sheet has one column per title. */
  lemma HeadersCount()
    ensures forall i, j :: 0 <= i < j < |Headers| ==> Headers[i] != Headers[j]
    ensures |set k | 0 <= k < |Headers| :: Headers[k]| == |Headers|
  {
    HeadersDistinct();
    DistinctCount(Headers, |Headers|);
  }

  /** No two columns share a title. */
  lemma HeadersDistinct()
    ensures forall i, j :: 0 <= i < j < |Headers| ==> Headers[i] != Headers[j]
  {
  }

  /** A sequence of distinct titles has as many titles as elements. */
  lemma {:induction false} DistinctCount(hs: seq<string>, n: nat)
    requires n <= |hs|
    requires forall i, j :: 0 <= i < j < |hs| ==> hs[i] != hs[j]
    ensures |set k | 0 <= k < n :: hs[k]| == n
    decreases n
  {
    if n > 0 {
      DistinctCount(hs, n - 1);
      var before := set k | 0 <= k < n - 1 :: hs[k];
      assert (set k | 0 <= k < n :: hs[k]) == before + {hs[n - 1]};
      assert hs[n - 1] !in before;
    }
  }

  // ----- Feature order -----

  predicate SortedById(fs: seq<Feature>) {
    forall i, j :: 0 <= i < j < |fs| ==> fs[i].poleId <= fs[j].poleId
  }

  predicate AtLeast(fs: seq<Feature>, id: int) {
    forall i :: 0 <= i < |fs| ==> id <= fs[i].poleId
  }

  /** Puts `f` before the first feature whose id is not smaller. */
  function Insert(f: Feature, fs: seq<Feature>): (r: seq<Feature>)
    ensures multiset(r) == multiset(fs) + multiset{f}
    ensures |r| == |fs| + 1
    decreases |fs|
  {
    if fs == [] || f.poleId <= fs[0].poleId then
      [f] + fs
    else
      assert fs == [fs[0]] + fs[1..];
      [fs[0]] + Insert(f, fs[1..])
  }

  /** A bound below `f` and every feature stays below the result. */
  lemma {:induction false} InsertAtLeast(f: Feature, fs: seq<Feature>, id: int)
    requires id <= f.poleId && AtLeast(fs, id)
    ensures AtLeast(Insert(f, fs), id)
    decreases |fs|
  {
    if fs != [] && f.poleId > fs[0].poleId {
      InsertAtLeast(f, fs[1..], id);
    }
  }

  /** Inserting into a sorted sequence keeps it sorted. */
  lemma {:induction false} InsertSorted(f: Feature, fs: seq<Feature>)
    requires SortedById(fs)
    ensures SortedById(Insert(f, fs))
    decreases |fs|
  {
    if fs != [] && f.poleId > fs[0].poleId {
      InsertSorted(f, fs[1..]);
      InsertAtLeast(f, fs[1..], fs[0].poleId);
      var rest := Insert(f, fs[1..]);
      assert Insert(f, fs) == [fs[0]] + rest;
    } else if fs != [] {
      assert AtLeast(fs, f.poleId);
    }
  }

  /** `sorted(features, key=pole_id)`, as an insertion sort. */
  function SortById(fs: seq<Feature>): (r: seq<Feature>)
    ensures multiset(r) == multiset(fs) && |r| == |fs|
    ensures SortedById(r)
    decreases |fs|
  {
    if fs == [] then []
    else
      assert fs == [fs[0]] + fs[1..];
      var rest := SortById(fs[1..]);
      InsertSorted(fs[0], rest);
      Insert(fs[0], rest)
  }

  /** An MV layer is sorted by pole id; any other layer keeps its order. */
  function Ordered(lineType: string, fs: seq<Feature>): (r: seq<Feature>)
    ensures multiset(r) == multiset(fs) && |r| == |fs|
    ensures lineType == "mv" ==> SortedById(r)
    ensures lineType != "mv" ==> r == fs
  {
    if lineType == "mv" then SortById(fs) else fs
  }

  // ----- The sheet -----

  /** What each feature gives, in the order the loop visits them. */
  function Outcomes(fs: seq<Feature>, lineType: string, fmt: Formats): (r: seq<Result<Row, SheetError>>)
    ensures |r| == |fs|
    ensures forall i :: 0 <= i < |fs| ==> r[i] == ToRow(fs[i].attrs, lineType, fmt)
  {
    seq(|fs|, i requires 0 <= i < |fs| => ToRow(fs[i].attrs, lineType, fmt))
  }

  /** The rows of the first `k` outcomes; the first failing feature aborts
      the export with its error. */
  function Rows(rs: seq<Result<Row, SheetError>>, k: nat): (r: Result<seq<Row>, SheetError>)
    requires k <= |rs|
    ensures r.Failure? <==> exists i :: 0 <= i < k && rs[i].Failure?
    ensures r.Failure? ==> exists i :: (0 <= i < k && rs[i] == Failure(r.error)
      && forall j :: 0 <= j < i ==> rs[j].Success?)
    ensures r.Success? ==> (|r.value| == k
      && forall i :: 0 <= i < k ==> Success(r.value[i]) == rs[i])
    decreases k
  {
    if k == 0 then Success([])
    else
      var rows :- Rows(rs, k - 1);
      var row :- rs[k - 1];
      Success(rows + [row])
  }

  /** The whole export: the rows of the (possibly sorted) features. */
  function Sheet(layerName: string, fs: seq<Feature>, fmt: Formats): (r: Result<seq<Row>, SheetError>)
    ensures r.Failure? <==> exists f :: f in fs && ToRow(f.attrs, LineType(layerName), fmt).Failure?
    ensures r.Success? ==> |r.value| == |fs|
    ensures r.Success? ==> forall i :: 0 <= i < |fs| ==>
      Success(r.value[i]) == ToRow(Ordered(LineType(layerName), fs)[i].attrs, LineType(layerName), fmt)
  {
    var lineType := LineType(layerName);
    var ordered := Ordered(lineType, fs);
    SameFailures(fs, ordered, lineType, fmt);
    var rs := Outcomes(ordered, lineType, fmt);
    Rows(rs, |rs|)
  }

  lemma SameFailures(fs: seq<Feature>, ordered: seq<Feature>, lineType: string, fmt: Formats)
    requires multiset(ordered) == multiset(fs)
    ensures (exists i :: 0 <= i < |ordered| && ToRow(ordered[i].attrs, lineType, fmt).Failure?) <==>
      exists f :: f in fs && ToRow(f.attrs, lineType, fmt).Failure?
    ensures |ordered| == |fs|
  {
    assert |ordered| == |multiset(ordered)| == |multiset(fs)| == |fs|;
    if exists i :: 0 <= i < |ordered| && ToRow(ordered[i].attrs, lineType, fmt).Failure? {
      var i :| 0 <= i < |ordered| && ToRow(ordered[i].attrs, lineType, fmt).Failure?;
      assert ordered[i] in multiset(fs);
    }
    if exists f :: f in fs && ToRow(f.attrs, lineType, fmt).Failure? {
      var f :| f in fs && ToRow(f.attrs, lineType, fmt).Failure?;
      assert f in multiset(ordered);
      var i :| 0 <= i < |ordered| && ordered[i] == f;
    }
  }

  // ----- Properties -----

  /** A count with no whitespace, `" x "`, and a type without `" x "`
      split into exactly the count and the type. */
  lemma SplitGuyText(count: string, guyType: string)
    requires forall i :: 0 <= i < |count| ==> !IsSpace(count[i])
    requires forall i :: !SeparatorAt(guyType, " x ", i)
    ensures Split(count + " x " + guyType, " x ") == [count, guyType]
  {
    var s := count + " x " + guyType;
    forall i | 0 <= i < |count|
      ensures !SeparatorAt(s, " x ", i)
    {
      assert s[i] == count[i];
      if i + 3 <= |s| {
        assert s[i..i + 3][0] == s[i];
      }
    }
    SplitAfterPiece(count, " x ", guyType);
    SplitWithoutSeparator(guyType, " x ");
  }

  /** A well-formed guy text `"<n> x <type>"` gives back its count and type. */
  lemma GuyRoundTrip(n: int, guyType: string, fmt: Formats)
    requires forall i :: !SeparatorAt(guyType, " x ", i)
    ensures Guy(Str(PadInt(n, 0) + " x " + guyType), fmt) == Success((Int(n), Str(guyType)))
  {
    PadIntNoSpace(n, 0);
    SplitGuyText(PadInt(n, 0), guyType);
    ParsePadRoundTrip(n, 0);
  }

  /** A guy count that is not an integer aborts the export. */
  lemma GuyCountNotInteger(count: string, guyType: string, fmt: Formats)
    requires forall i :: 0 <= i < |count| ==> !IsSpace(count[i])
    requires forall i :: !SeparatorAt(guyType, " x ", i)
    requires ParseInt(count).None?
    ensures Guy(Str(count + " x " + guyType), fmt) == Failure(BadGuyCount(count))
  {
    SplitGuyText(count, guyType);
  }

  /** Text without the letter x holds no `" x "`. */
  lemma NoLetterX(s: string)
    requires forall i :: 0 <= i < |s| ==> s[i] != 'x'
    ensures forall i :: !SeparatorAt(s, " x ", i)
  {
    forall i | 0 <= i < |s| - 2
      ensures !SeparatorAt(s, " x ", i)
    {
      assert s[i..i + 3][1] == s[i + 1];
    }
  }

  /** A guy text without `" x "` (a NULL guy among them) gives no guy and
      no anchor. */
  lemma NoGuyWithoutSeparator(guy: Value, fmt: Formats)
    requires forall i :: !SeparatorAt(Show(guy, fmt), " x ", i)
    ensures Guy(guy, fmt) == Success((Str(""), Str("")))
  {
    SplitWithoutSeparator(Show(guy, fmt), " x ");
  }

  /** A NULL guy gives no guy and no anchor, whether NULL reads "NULL" or
      "None". */
  lemma NullGuy(fmt: Formats)
    requires fmt.nullText == "NULL" || fmt.nullText == "None"
    ensures Guy(Null, fmt) == Success((Str(""), Str("")))
  {
    NoLetterX(Show(Null, fmt));
    NoGuyWithoutSeparator(Null, fmt);
  }

  /** The count shown before a structure name: omitted when it is 1. */
  function CountText(n: int): string {
    if n == 1 then "" else PadInt(n, 0)
  }

  /** An independent reading of the structure unit for two non-zero integer
      counts: `"<a>J10 + <b>J19"` with a count of 1 left out, and a
      quantity of 1. */
  lemma StructureComposite(a: int, b: int, fmt: Formats)
    requires a != 0 && b != 0
    ensures Structure(Int(a), Int(b), fmt) ==
      (Int(1), Str(CountText(a) + "J10 + " + CountText(b) + "J19"))
  {
    var ta, tb := Show(Int(a), fmt), Show(Int(b), fmt);
    if a == 1 && b == 1 {
      assert "" + "J10 + " + "" + "J19" == "J10 + J19";
    } else if a == 1 {
      assert "" + "J10 + " + tb + "J19" == "J10 + " + tb + "J19";
    } else if b == 1 {
      assert ta + "J10 + " + "" + "J19" == ta + "J10 + J19";
    }
  }

  /** The unit names only J19 when there are no J10 structures, and only J10
      when there are no J19 structures (and some J10). */
  lemma StructureSingle(j10: Value, j19: Value, fmt: Formats)
    requires IsZero(j10) || (j10.Int? && j10.i != 0 && IsZero(j19))
    ensures IsZero(j10) ==> Structure(j10, j19, fmt).1 == Str("J19")
    ensures !IsZero(j10) ==> Structure(j10, j19, fmt) == (j10, Str("J10"))
  {
  }

  /** J19 is never tested for NULL: a NULL J19 beside a non-zero integer J10
      writes the host's text for NULL in place of the J19 count. */
  lemma StructureNullJ19(a: int, fmt: Formats)
    requires a != 0
    ensures Structure(Int(a), Null, fmt) ==
      (Int(1), Str(CountText(a) + "J10 + " + fmt.nullText + "J19"))
  {
    if a == 1 {
      assert "" + "J10 + " + fmt.nullText + "J19" == "J10 + " + fmt.nullText + "J19";
    }
  }

  /** The guy lead and anchor type follow the line type. */
  lemma GuyEquipment(attrs: seq<Value>, lineType: string, fmt: Formats)
    requires ToRow(attrs, lineType, fmt).Success?
    requires Truthy(ToRow(attrs, lineType, fmt).value.guyQty)
    ensures lineType == "mv" ==> (ToRow(attrs, lineType, fmt).value.guyLead == Int(11)
      && ToRow(attrs, lineType, fmt).value.anchorType == Str("F1-2"))
    ensures lineType != "mv" ==> (ToRow(attrs, lineType, fmt).value.guyLead == Int(7)
      && ToRow(attrs, lineType, fmt).value.anchorType == Str("F1-1"))
  {
  }

  /** Only an MV or LV layer shows a back span at all. */
  lemma BackSpanLineTypes(attrs: seq<Value>, lineType: string, fmt: Formats)
    requires ToRow(attrs, lineType, fmt).Success?
    requires lineType != "mv" && lineType != "lv"
    ensures ToRow(attrs, lineType, fmt).value.backSpan == Str("")
    ensures ToRow(attrs, lineType, fmt).value.primaryBackSpan == Str("")
  {
  }

  /** The LV layer the script names keeps its features in layer order;
      the MV layer it names in a comment is sorted by pole id. */
  lemma LvLayerKeepsOrder(fs: seq<Feature>)
    ensures LineType("lv_poles - design_grid_extension") == "lv"
    ensures Ordered(LineType("lv_poles - design_grid_extension"), fs) == fs
    ensures SortedById(Ordered(LineType("mv_poles"), fs))
  {
    assert "lv_poles - design_grid_extension"[..2] == "lv";
    assert "mv_poles"[..2] == "mv";
  }
}

=== FILE: text.dfy ===
/** The pieces of Python's string handling the scripts rely on: the
    zero-padded integer format `f'{n:0Wd}'` used for every pole label and
    for the UTM EPSG code, `int(s)` used to read a pole number back, and
    `str.split(sep)` / `str.startswith(prefix)`. */
module Text {
  import opened Wrappers

  predicate IsDigit(c: char) {
    '0' <= c <= '9'
  }

  predicate AllDigits(s: string) {
    forall i :: 0 <= i < |s| ==> IsDigit(s[i])
  }

  /** The characters `str.strip()` removes (ASCII whitespace). */
  predicate IsSpace(c: char) {
    c == ' ' || c == '\t' || c == '\n' || c == '\r' || c == '\U{B}' || c == '\U{C}'
  }

  function DigitChar(d: nat): (c: char)
    requires d < 10
    ensures IsDigit(c)
  {
    (('0' as int) + d) as char
  }

  function DigitValue(c: char): nat
    requires IsDigit(c)
  {
    (c as int) - ('0' as int)
  }

  /** Decimal digits of `n`, most significant first, no leading zeros. */
  function Digits(n: nat): (s: string)
    ensures |s| >= 1 && AllDigits(s)
    decreases n
  {
    if n < 10 then [DigitChar(n)] else Digits(n / 10) + [DigitChar(n % 10)]
  }

  /** The value of a run of decimal digits (leading zeros allowed). */
  function DigitsValue(s: string): nat
    requires AllDigits(s)
  {
    if s == [] then 0 else DigitsValue(s[..|s| - 1]) * 10 + DigitValue(s[|s| - 1])
  }

  function Zeros(k: nat): (s: string)
    ensures |s| == k && AllDigits(s)
  {
    seq(k, _ => '0')
  }

  /** Left-pads `s` with '0' up to `width` characters. */
  function ZeroFill(s: string, width: nat): (r: string)
    ensures |r| == if |s| < width then width else |s|
  {
    if |s| < width then Zeros(width - |s|) + s else s
  }

  /** Python's `f'{n:0{width}d}'`: the sign comes first and counts towards
      the width, so `-5` at width 3 is "-05". */
  function PadInt(n: int, width: nat): (s: string)
    ensures |s| >= 1
    ensures n >= 0 ==> s[0] != '-'
    ensures n < 0 ==> s[0] == '-'
  {
    if n < 0 then "-" + ZeroFill(Digits(-n), if width > 0 then width - 1 else 0)
    else ZeroFill(Digits(n), width)
  }

  /** `<prefix><n:0width d>`, the shape of every pole and line label. */
  function Label(prefix: string, n: int, width: nat): string {
    prefix + PadInt(n, width)
  }

  function TrimStart(s: string): (r: string)
    ensures |r| <= |s|
  {
    if |s| > 0 && IsSpace(s[0]) then TrimStart(s[1..]) else s
  }

  function TrimEnd(s: string): (r: string)
    ensures |r| <= |s|
  {
    if |s| > 0 && IsSpace(s[|s| - 1]) then TrimEnd(s[..|s| - 1]) else s
  }

  /** Python's `int(s)` on a string in base 10: surrounding whitespace, an
      optional sign, then one or more decimal digits; anything else is a
      ValueError, here None. */
  function ParseInt(s: string): Option<int> {
    var t := TrimStart(TrimEnd(s));
    if |t| > 0 && (t[0] == '-' || t[0] == '+') then
      if |t| > 1 && AllDigits(t[1..]) then
        var v: int := DigitsValue(t[1..]);
        Some(if t[0] == '-' then -v else v)
      else None
    else if |t| > 0 && AllDigits(t) then Some(DigitsValue(t))
    else None
  }

  predicate StartsWith(s: string, prefix: string) {
    |prefix| <= |s| && s[..|prefix|] == prefix
  }

  /** Python's `s.split(sep)` for a non-empty separator: cut at every
      non-overlapping occurrence, scanning left to right. */
  function Split(s: string, sep: string): (parts: seq<string>)
    requires |sep| > 0
    ensures |parts| >= 1
    decreases |s|
  {
    if |s| < |sep| then [s]
    else if s[..|sep|] == sep then [[]] + Split(s[|sep|..], sep)
    else
      var rest := Split(s[1..], sep);
      [[s[0]] + rest[0]] + rest[1..]
  }

  /** Python's `sep.join(parts)`. */
  function Join(parts: seq<string>, sep: string): string
    requires |parts| >= 1
  {
    if |parts| == 1 then parts[0] else parts[0] + sep + Join(parts[1..], sep)
  }

  // ----- Properties -----

  lemma {:induction false} DigitsRoundTrip(n: nat)
    ensures DigitsValue(Digits(n)) == n
    decreases n
  {
    var s := Digits(n);
    if n >= 10 {
      DigitsRoundTrip(n / 10);
      assert s[..|s| - 1] == Digits(n / 10);
    }
  }

  lemma {:induction false} LeadingZerosIgnored(k: nat, s: string)
    requires AllDigits(s)
    ensures AllDigits(Zeros(k) + s)
    ensures DigitsValue(Zeros(k) + s) == DigitsValue(s)
    decreases |s|
  {
    var t := Zeros(k) + s;
    assert AllDigits(t);
    if s == [] {
      assert t == Zeros(k);
      ZerosValue(k);
    } else {
      assert t[..|t| - 1] == Zeros(k) + s[..|s| - 1];
      LeadingZerosIgnored(k, s[..|s| - 1]);
    }
  }

  lemma {:induction false} ZerosValue(k: nat)
    ensures DigitsValue(Zeros(k)) == 0
    decreases k
  {
    if k > 0 {
      assert Zeros(k)[..k - 1] == Zeros(k - 1);
      ZerosValue(k - 1);
    }
  }

  lemma ZeroFillValue(s: string, width: nat)
    requires AllDigits(s)
    ensures AllDigits(ZeroFill(s, width))
    ensures DigitsValue(ZeroFill(s, width)) == DigitsValue(s)
  {
    if |s| < width {
      LeadingZerosIgnored(width - |s|, s);
    }
  }

  /** Reading a formatted integer back with `int()` gives the integer. */
  lemma ParsePadRoundTrip(n: int, width: nat)
    ensures ParseInt(PadInt(n, width)) == Some(n)
  {
    if n < 0 {
      ParseNegative(n, width);
    } else {
      ParseNonNegative(n, width);
    }
  }

  /** The zero-filled digits of `m` are digits that read back as `m`, and
      hold no whitespace to strip. */
  lemma FilledDigits(m: nat, w: nat)
    ensures AllDigits(ZeroFill(Digits(m), w))
    ensures DigitsValue(ZeroFill(Digits(m), w)) == m
    ensures |ZeroFill(Digits(m), w)| >= 1
  {
    ZeroFillValue(Digits(m), w);
    DigitsRoundTrip(m);
  }

  lemma ParseNonNegative(n: int, width: nat)
    requires n >= 0
    ensures ParseInt(PadInt(n, width)) == Some(n)
  {
    var s := PadInt(n, width);
    FilledDigits(n, width);
    assert s == ZeroFill(Digits(n), width);
    NoSpaceTrim(s);
    assert s[0] != '-' && s[0] != '+';
  }

  lemma ParseNegative(n: int, width: nat)
    requires n < 0
    ensures ParseInt(PadInt(n, width)) == Some(n)
  {
    var body := ZeroFill(Digits(-n), if width > 0 then width - 1 else 0);
    FilledDigits(-n, if width > 0 then width - 1 else 0);
    ParseMinusDigits(body);
    assert PadInt(n, width) == "-" + body;
  }

  /** `int()` reads a minus sign followed by digits as the negated value. */
  lemma ParseMinusDigits(body: string)
    requires |body| >= 1 && AllDigits(body)
    ensures ParseInt("-" + body) == Some(0 - DigitsValue(body) as int)
  {
    var s := "-" + body;
    NoSpaceTrim(s);
    assert s[1..] == body;
  }

  /** Stripping a string that neither starts nor ends in whitespace leaves it as is. */
  lemma NoSpaceTrim(s: string)
    requires |s| > 0 && !IsSpace(s[0]) && !IsSpace(s[|s| - 1])
    ensures TrimStart(TrimEnd(s)) == s
  {
  }

  /** Distinct numbers give distinct labels under one prefix and width. */
  lemma LabelInjective(prefix: string, a: int, b: int, width: nat)
    requires Label(prefix, a, width) == Label(prefix, b, width)
    ensures a == b
  {
    var la := Label(prefix, a, width);
    assert la[|prefix|..] == PadInt(a, width);
    assert Label(prefix, b, width)[|prefix|..] == PadInt(b, width);
    ParsePadRoundTrip(a, width);
    ParsePadRoundTrip(b, width);
  }

  /** A number below 10^k has at most k digits. */
  lemma {:induction false} DigitsLength(n: nat, k: nat)
    requires 1 <= k && n < Pow10(k)
    ensures |Digits(n)| <= k
    decreases k
  {
    if n >= 10 {
      assert k > 1;
      assert n / 10 < Pow10(k - 1);
      DigitsLength(n / 10, k - 1);
    }
  }

  function Pow10(k: nat): (p: nat)
    ensures p >= 1
  {
    if k == 0 then 1 else 10 * Pow10(k - 1)
  }

  /** A non-negative number below 10^width formats to exactly width characters. */
  lemma PadIntWidth(n: int, width: nat)
    requires 1 <= width && 0 <= n < Pow10(width)
    ensures |PadInt(n, width)| == width
  {
    DigitsLength(n, width);
  }

  /** Joining the pieces of a split with the separator gives the string back. */
  lemma {:induction false} SplitJoin(s: string, sep: string)
    requires |sep| > 0
    ensures Join(Split(s, sep), sep) == s
    decreases |s|
  {
    if |s| < |sep| {
    } else if s[..|sep|] == sep {
      SplitJoin(s[|sep|..], sep);
      var rest := Split(s[|sep|..], sep);
      assert Split(s, sep) == [[]] + rest;
      assert ([[]] + rest)[1..] == rest;
      assert s == sep + s[|sep|..];
    } else {
      var rest := Split(s[1..], sep);
      SplitJoin(s[1..], sep);
      var parts := [[s[0]] + rest[0]] + rest[1..];
      assert Split(s, sep) == parts;
      if |rest| == 1 {
        assert Join(parts, sep) == [s[0]] + rest[0];
      } else {
        assert parts[1..] == rest[1..];
        assert Join(rest, sep) == rest[0] + sep + Join(rest[1..], sep);
        assert Join(parts, sep) == [s[0]] + rest[0] + sep + Join(rest[1..], sep);
      }
      assert s == [s[0]] + s[1..];
    }
  }

  /** `sep` occurs in `s` starting at index `i`. */
  predicate SeparatorAt(s: string, sep: string, i: int) {
    0 <= i && i + |sep| <= |s| && s[i..i + |sep|] == sep
  }

  /** A string holding no occurrence of the separator is one piece. */
  lemma {:induction false} SplitWithoutSeparator(s: string, sep: string)
    requires |sep| > 0
    requires forall i :: !SeparatorAt(s, sep, i)
    ensures Split(s, sep) == [s]
    decreases |s|
  {
    if |s| >= |sep| {
      assert s[0..|sep|] == s[..|sep|];
      assert !SeparatorAt(s, sep, 0);
      forall i | SeparatorAt(s[1..], sep, i)
        ensures false
      {
        assert s[1..][i..i + |sep|] == s[i + 1..i + 1 + |sep|];
        assert SeparatorAt(s, sep, i + 1);
      }
      SplitWithoutSeparator(s[1..], sep);
      assert [s[0]] + s[1..] == s;
    }
  }

  /** A piece with no separator starting inside it, then the separator:
      the piece comes off as the first part. */
  lemma {:induction false} SplitAfterPiece(a: string, sep: string, b: string)
    requires |sep| > 0
    requires forall i :: 0 <= i < |a| ==> !SeparatorAt(a + sep + b, sep, i)
    ensures Split(a + sep + b, sep) == [a] + Split(b, sep)
    decreases |a|
  {
    var s := a + sep + b;
    if a == [] {
      assert s == sep + b;
      assert s[..|sep|] == sep;
      assert s[|sep|..] == b;
    } else {
      assert s[0..|sep|] == s[..|sep|];
      assert !SeparatorAt(s, sep, 0);
      assert s[1..] == a[1..] + sep + b;
      forall i | 0 <= i < |a[1..]|
        ensures !SeparatorAt(a[1..] + sep + b, sep, i)
      {
        assert !SeparatorAt(s, sep, i + 1);
        assert s[i + 1..i + 1 + |sep|] == s[1..][i..i + |sep|];
      }
      SplitAfterPiece(a[1..], sep, b);
      assert [a[0]] + a[1..] == a;
    }
  }

  /** `int()` on a bare run of digits, on `+` and digits, and on a blank
      string. */
  lemma ParseIntShape(s: string)
    ensures TrimStart(TrimEnd(s)) == [] ==> ParseInt(s) == None
    ensures |s| > 0 && AllDigits(s) ==> ParseInt(s) == Some(DigitsValue(s))
    ensures |s| > 1 && s[0] == '+' && AllDigits(s[1..]) ==> ParseInt(s) == Some(DigitsValue(s[1..]))
  {
    if |s| > 0 && AllDigits(s) {
      NoSpaceTrim(s);
    }
    if |s| > 1 && s[0] == '+' && AllDigits(s[1..]) {
      assert s[|s| - 1] == s[1..][|s| - 2];
      NoSpaceTrim(s);
    }
  }

  /** A label starts with its prefix, and the rest reads back as its number. */
  lemma LabelReadsBack(prefix: string, n: int, width: nat)
    ensures StartsWith(Label(prefix, n, width), prefix)
    ensures ParseInt(Label(prefix, n, width)[|prefix|..]) == Some(n)
  {
    assert Label(prefix, n, width)[|prefix|..] == PadInt(n, width);
    ParsePadRoundTrip(n, width);
  }

  /** The first piece of a split is a prefix of the text. */
  lemma {:induction false} SplitFirstPrefix(s: string, sep: string)
    requires |sep| > 0
    ensures Split(s, sep)[0] <= s
    decreases |s|
  {
    if |s| >= |sep| && s[..|sep|] != sep {
      SplitFirstPrefix(s[1..], sep);
      assert s == [s[0]] + s[1..];
    }
  }

  /** No piece of a split holds the separator. */
  lemma {:induction false} SplitPiecesClean(s: string, sep: string)
    requires |sep| > 0
    ensures forall k, i :: 0 <= k < |Split(s, sep)| ==> !SeparatorAt(Split(s, sep)[k], sep, i)
    decreases |s|
  {
    var parts := Split(s, sep);
    if |s| < |sep| {
      assert parts == [s];
    } else if s[..|sep|] == sep {
      SplitPiecesClean(s[|sep|..], sep);
      assert parts == [[]] + Split(s[|sep|..], sep);
      forall k, i | 0 <= k < |parts|
        ensures !SeparatorAt(parts[k], sep, i)
      {
        if k > 0 {
          assert parts[k] == Split(s[|sep|..], sep)[k - 1];
        }
      }
    } else {
      var rest := Split(s[1..], sep);
      SplitPiecesClean(s[1..], sep);
      SplitFirstPrefix(s[1..], sep);
      var first := [s[0]] + rest[0];
      assert parts == [first] + rest[1..];
      forall k, i | 0 <= k < |parts|
        ensures !SeparatorAt(parts[k], sep, i)
      {
        if k > 0 {
          assert parts[k] == rest[k];
        } else if i == 0 {
          assert first <= s;
          if |sep| <= |first| {
            assert first[..|sep|] == s[..|sep|];
          }
        } else if 0 < i && i + |sep| <= |first| {
          assert first[i..i + |sep|] == rest[0][i - 1..i - 1 + |sep|];
          assert !SeparatorAt(rest[0], sep, i - 1);
        }
      }
    }
  }

  /** A formatted integer holds no whitespace. */
  lemma PadIntNoSpace(n: int, width: nat)
    ensures forall i :: 0 <= i < |PadInt(n, width)| ==> !IsSpace(PadInt(n, width)[i])
  {
    var m := if n < 0 then -n else n;
    var w := if n < 0 then (if width > 0 then width - 1 else 0) else width;
    FilledDigits(m, w);
    var body := ZeroFill(Digits(m), w);
    if n < 0 {
      assert PadInt(n, width) == "-" + body;
      forall i | 0 <= i < |PadInt(n, width)|
        ensures !IsSpace(PadInt(n, width)[i])
      {
        if i > 0 {
          assert PadInt(n, width)[i] == body[i - 1];
        }
      }
    } else {
      assert PadInt(n, width) == body;
    }
  }

}

=== FILE: wrappers.dfy ===
/** Option and Result, the structured form of the scripts' "warn and skip"
    lookups and of the Python exceptions that abort a script. */
module Wrappers {

  datatype Option<+T> = None | Some(value: T)

  datatype Result<+R, +E> = Success(value: R) | Failure(error: E) {

    predicate IsFailure() {
      Failure?
    }

    function PropagateFailure<U>(): Result<U, E>
      requires Failure?
    {
      Failure(error)
    }

    function Extract(): R
      requires Success?
    {
      value
    }
  }
}
